=== FILE: README.md ===
# Togg sedan car add-on — a Dafny model

This project models the core of the s&box "Togg sedan" car add-on in Dafny, in both of the add-on's revisions:

- the current scene-component revision (`code/CarEntity.cs`, `code/CarCamera.cs`);
- the historical entity revision (`code/togg_sedan_car/CarEntity.cs`, `code/togg_sedan_car/CarCamera.cs`, `code/togg_sedan_car/CarWheel.cs`).

The model covers four parts:

- **Vehicle controller.** One physics pre-step of the car. It composes the driver's buttons into an input state. It takes the drive direction and drive impulse, and the exponentially smoothed steering, stance, air-control and grip fields. It computes the four probe lengths and the grounded classification, the gravity scale, and the angular and velocity damping coefficients. It also computes the yaw impulse (`CalculateTurnFactor`) and the air-control forces.
- **Suspension probe** (`ToggWheel.Raycast`). The probe keeps a compression history one step deep. From a ray-trace result it produces the spring, damper and penetration-correction terms.
- **Chase camera** (`ToggCamera`). The camera is a two-state machine: orbiting after look input, or returning behind the car once a 0.6 s cooldown has passed. The model covers:
  - the car-pitch follow;
  - the return targets and rates;
  - the speed-driven field of view;
  - the speed shake;
  - the experimental camera's bounded drift;
  - the look-input handling.
- **Car lifecycle.** The model covers:
  - the driver's seat: enter, leave, the one-second re-entry guard, and the swallowed first use press;
  - health and explosion;
  - the feature toggles;
  - collision damage.

The modules follow the program's structure:

| file | module | what it holds |
|---|---|---|
| scalar.dfy | `Scalar` | `Clamp`, `LerpTo` with the engine's clamped fraction, and repeated smoothing |
| wrappers.dfy | `Wrappers` | `Option` |
| tuning.dfy | `Tuning` | the constants that differ between the two revisions |
| wheel.dfy | `Wheel` | the suspension probe (class `ToggWheel`) and its force terms |
| drive.dfy | `Drive` | the pure arithmetic of the pre-step |
| vehicle.dfy | `Vehicle` | the controller state and the pre-step (class `VehicleController`) |
| physics_tick.dfy | `PhysicsTick` | `Ticked`: the whole tick as one predicate, promised by both car entities' physics hooks |
| lifecycle.dfy | `Lifecycle` | the health machine, the seat rules, feature toggles and collision damage |
| orbit.dfy | `Orbit` | the camera's pure arithmetic |
| camera.dfy | `Camera` | the camera state machine (class `ToggCamera`, both revisions), and its outcomes `Behind`, `Framed` and `LookApplied`, which the car entities pass on |
| sedan.dfy | `Sedan` | the current revision's car component (class `ToggSedan`) |
| legacy_sedan.dfy | `LegacySedan` | the historical car entity (class `ToggSedan`) |

**Engine reads are parameters.** These include ray traces, the body's velocities, rotations, `MathF.Pow` decay factors, noise samples, `Time.Now` and `Time.Delta`, network roles, button states and object validity. A `TimeSince` is modelled as the timestamp it was reset at: "time since" is `now` minus that timestamp. The physics pre-step does not write to the rigid body. It returns a `BodyCommands` value that says what the body is told.

## Model

| member | source | states |
|---|---|---|
| Scalar.LerpTo | code/CarEntity.cs:255 | The smoothed value lies between the start and the target. It is the start for a fraction ≤ 0 and the target for a fraction ≥ 1. |
| Scalar.SmoothRepeatedlyBetween | code/CarEntity.cs:274-275 | Over any number of ticks with any time steps, a smoothed field never leaves the interval between its start and its target. |
| Scalar.SmoothRepeatedlyAtRest | code/CarEntity.cs:274-275 | A field that already sits on its target stays there. |
| Scalar.SmoothRepeatedlyReachesTarget | code/CarEntity.cs:274-275 | Once one tick has a full-weight fraction, the field is on its target from then on. |
| Tuning.TiltGain | code/CarEntity.cs:425 | The tilt gain (1.5 now, 2.5 in code/togg_sedan_car/CarEntity.cs:459) is positive and at most 2.5, which keeps every probe within 5 units of 20. |
| Tuning.LeanGain | code/CarEntity.cs:426 | The lean gain (1.35 now, 2.5 in code/togg_sedan_car/CarEntity.cs:460) is positive and at most 2.5. |
| Tuning.CarPitchSmoothingSpeed | code/CarCamera.cs:25 | The car-pitch follow rate (0.4 now, 1.0 in code/togg_sedan_car/CarCamera.cs:23) lies in (0, 1]. |
| Wheel.GroundDistance | code/togg_sedan_car/CarWheel.cs:35 | The reported distance `length·fraction` lies in [0, length] for a fraction in [0, 1]. It equals the length for fraction 1, which is what a trace that hits nothing reports. |
| Wheel.Compression | code/togg_sedan_car/CarWheel.cs:63 | The compression is non-negative when the hit is within the scaled probe length, and zero at its end. |
| Wheel.DamperCoefficient | code/togg_sedan_car/CarWheel.cs:67 | The damper gain lies in [1.5, 4.5]: 1.5 at the far end of the probe and 4.5 at the attach point. |
| Wheel.SpeedDot | code/togg_sedan_car/CarWheel.cs:70 | The downward share of the point velocity lies in [0, 1]. It is 0 for a zero speed (no division) and 0 when the point moves upwards. |
| Wheel.SpringForce | code/togg_sedan_car/CarWheel.cs:66 | The spring term is non-negative for a compressed probe, positive when mass and compression are, and 0 at zero compression. |
| Wheel.DamperForce | code/togg_sedan_car/CarWheel.cs:65-67 | The damper term has the sign of the change in compression, and is 0 when the compression is unchanged. |
| Wheel.CorrectionForce | code/togg_sedan_car/CarWheel.cs:71-73 | The correction term is non-negative for fraction ≤ 1 and dt > 0. It vanishes when nothing moves downwards or the hit is at the probe's end. |
| Wheel.Forces | code/togg_sedan_car/CarWheel.cs:65-75 | A probe whose compression is non-negative and not decreasing since the previous hit never pulls the chassis towards the ground: the impulse is ≥ 0 (given a non-negative mass, a fraction in [0, 1] and a point velocity whose speed bounds its parts). With the compression unchanged, and the point not moving down or the ray ending at its full length, only the spring acts: the impulse is `SpringForce·dt`. |
| Wheel.RestingImpulseIsSpring | code/togg_sedan_car/CarWheel.cs:65-75 | At rest on a compressed probe, the impulse is the spring term alone, and it pushes outward. |
| Wheel.ToggWheel.constructor | code/togg_sedan_car/CarWheel.cs:14-19 | A new probe has both history lengths at 0. |
| Wheel.ToggWheel.Raycast | code/togg_sedan_car/CarWheel.cs:21-78 | The result is the hit flag, and the distance is `length·fraction`. Without a hit, or outside a physics pass, the history is unchanged and there is no impulse. On a physics hit, the previous length takes the old current length, the current length becomes the compression, and the impulse is `Forces` of that history. |
| Drive.Axis | code/CarEntity.cs:195 | A button pair gives +1, -1 or 0. It is +1 exactly when only the positive button is held. |
| Drive.ComposeInput | code/CarEntity.cs:194-199 | Throttle, turning, tilt and roll are in {-1, 0, 1} and breaking is in {0, 1}. Turning equals roll. Each component is tied to its buttons both ways. |
| Drive.NeutralIsWellFormed | code/CarEntity.cs:74-81 | The reset input has all five components at 0 and is well-formed. |
| Drive.AccelerateDirection | code/CarEntity.cs:254 | For breaking in [0, 1], the drive direction lies in [-1, 1]. It is 0 when braking fully, and the clamped throttle when not braking. |
| Drive.DriveSpeedFactor | code/CarEntity.cs:280 | The speed taper lies in [0, 1]. It is 1 at standstill and 0 at 5000 units/s and beyond. |
| Drive.DriveGain | code/CarEntity.cs:281 | The gain is `AccelerateSpeed` (500) going forward and half of it in reverse. |
| Drive.DriveAcceleration | code/CarEntity.cs:279-281 | The drive impulse is 0 without direction or time. It has the sign of the direction, and its magnitude is at most `AccelerateSpeed·dt`. |
| Drive.ReverseDriveIsHalf | code/CarEntity.cs:281 | Reversing at the same strength yields exactly minus half the forward impulse. |
| Drive.SpeedFraction | code/CarEntity.cs:267-268 | The speed fraction lies in [0, 1]. It is 1 at 500 units/s and beyond, and 0 at standstill. |
| Drive.StanceTarget | code/CarEntity.cs:260-272 | Airborne, the stance target is level. The tilt target is in [-1, 1] and the lean target is bounded by the turn direction. At 500 units/s or more the lean equals the turn direction. |
| Drive.TurnRamp | code/CarEntity.cs:398 | The low-speed steering ramp lies in [0, 1]. It reaches 1 at 500 units/s. |
| Drive.YawSpeedFactor | code/CarEntity.cs:399 | The yaw authority lies in [0.4, 1]. It is 1 at standstill and reaches its floor 0.4 at 600 units/s. |
| Drive.CalculateTurnFactor | code/CarEntity.cs:396-402 | For a non-negative speed, the result lies between 0 and the direction, so its magnitude is at most the direction's. It is 0 at standstill or with no direction. At 600 units/s and above it is `0.4·direction`. |
| Drive.TurnAmount | code/CarEntity.cs:329 | The yaw impulse is 0 when the front axle is off the ground, at standstill, or with no steering. Otherwise it lies between 0 and `±25·turnDirection·dt`, with the sign flipped when reversing. |
| Drive.ProbeLengths | code/CarEntity.cs:425-436 | The four lengths sum to 4·20. Front minus back is 4·tiltGain·tilt, right minus left is 4·leanGain·lean, and both sides lean alike. For inputs in [-1, 1] each length lies in [15, 25]. |
| Drive.GravityScale | code/CarEntity.cs:296 | The gravity scale is 0 exactly when both axles are grounded, otherwise 1. |
| Drive.VelocityTrust | code/CarEntity.cs:300-302 | The trust in the horizontal velocity lies in [0, 1]. It is 0 up to 250 units/s, where the fifth power falls below 0.01, and 1 from 1000 units/s. |
| Drive.GripTarget | code/CarEntity.cs:310-311 | The grip target lies in [0, 1]. With no trust in the velocity it is full grip (1); with full trust it is the clamped heading agreement. |
| Drive.GripTargetMonotone | code/CarEntity.cs:310-311 | The grip target never falls as the heading agrees better with the velocity. |
| Drive.AngularDamping | code/CarEntity.cs:319-323 | Fully grounded, the angular damping is `5·grip`, in [0, 5]. Otherwise it is 0.5. |
| Drive.ForwardGrip | code/CarEntity.cs:335-336 | The forward damping lies in [0.1, 0.9]: 0.1 without the brake and 0.9 at full brake. |
| Drive.AirControlForces | code/CarEntity.cs:352-390 | There is no air control unless it is allowed and the smoothed roll or tilt is non-zero. Roll needs roll input, and tilt needs tilt input and no ground under the lift probe. Pushes are non-negative, and the levers are the offset times the raw or smoothed value as the source picks. Damping happens exactly when a push is applied. |
| Vehicle.VehicleController.constructor | code/CarEntity.cs:86-92 | Four distinct fresh probes; a neutral input; every smoothed field at 0. |
| Vehicle.VehicleController.SmoothControls | code/CarEntity.cs:254-275 | The drive direction comes from the input. Steering, air and stance fields each move towards their clamped target by their decay fraction. Stance targets use the previous tick's grounded flags. All stay in range. |
| Vehicle.VehicleController.RaycastWheels | code/CarEntity.cs:411-437 | Each axle is grounded iff either of its probes hits. All four probes run, each with its `ProbeLengths` length, and each updates its own history as `Raycast` states. |
| Vehicle.VehicleController.Handle | code/CarEntity.cs:287-393 | The grounded flags come from the probes and grip follows its target. On the ground: steering impulse, air fields cleared, wheel speed recorded, velocity damping. In the air: air control only when the drop probe finds nothing. |
| Vehicle.VehicleController.PrePhysicsStep | code/CarEntity.cs:235-394 | The whole tick: the new value of every field, and every command to the body, each in terms of the functions above. The input is unchanged, and the smoothed fields take one `Steps` step from their old values (`Smoothed`), so by `Vehicle.StepsIsSmoothStep` they are `SmoothStep` of the old ones. The controller invariant (every smoothed field in range) is kept. |
| Vehicle.SmoothStep | code/CarEntity.cs:254-335 | One tick's smoothing of the drive direction, steering, stance, air and grip fields. No field leaves its range, steering and grip never overshoot their targets, and the air fields are 0 on the ground. |
| Vehicle.StepsIsSmoothStep | code/CarEntity.cs:254-335 | The field-by-field step relation the tick establishes holds exactly when the new fields are `SmoothStep` of the old ones: the tick's outcome is determined. |
| Vehicle.ParkedTickIsNoOp | code/CarEntity.cs:254-335 | A tick with no input held, from fields at rest (no steering, stance or air control, full grip) and with the velocity untrusted (`VelocityTrust` 0, as below 250 units/s), leaves every smoothed field as it was, with drive direction 0, on the ground or not. |
| Vehicle.GroundedMeansNoAirControl | code/CarEntity.cs:325-352 | A grounded tick hands no air control to the body, whatever the input. |
| Lifecycle.HealthAfterHit | code/CarEntity.cs:693-747 | An intact car loses the damage, floored at 0. A hit on a wrecked car (0) explodes it (-1). An exploded car is unaffected. Health never rises under non-negative damage. |
| Lifecycle.HitsKeepHealthShape | code/CarEntity.cs:693-747 | Over any run of hits, health stays intact, wrecked or exploded. |
| Lifecycle.ExplodedIsFinal | code/CarEntity.cs:693-702 | An exploded car stays exploded through any run of hits. |
| Lifecycle.HitsNeverHeal | code/CarEntity.cs:693-747 | Non-negative hits never raise health. |
| Lifecycle.ExplosionNeedsTwoHits | code/CarEntity.cs:693-747 | An intact car cannot explode on a single hit: exploding takes one hit to wreck it and a further one. |
| Lifecycle.WreckThenExplode | code/CarEntity.cs:693-747 | A hit of at least the remaining health wrecks an intact car, and the next hit explodes it. |
| Lifecycle.RemovedDriverAsWritten | code/CarEntity.cs:484-533 | As written, the seat is cleared only for a valid driver. An invalid (destroyed) driver stays seated. |
| Lifecycle.DestroyedDriverLocksCar | code/CarEntity.cs:165-167 | As written, removing a destroyed driver leaves the car occupied, so `CanPress` is false forever. |
| Lifecycle.RemovedDriver | code/togg_sedan_car/CarEntity.cs:506-516 | The corrected removal always frees the seat. It agrees with the code as written for a valid driver. |
| Lifecycle.DestroyedDriverFreesCar | code/CarEntity.cs:578-581 | With the corrected removal, a car that has not exploded can be entered again after its driver is destroyed. |
| Lifecycle.HandleFeature | code/CarEntity.cs:584-640 | Flag 0 toggles only the short lights, 1 only the headlights, 3 only the experimental camera. Any other flag (including the horn, 2) changes no toggle. |
| Lifecycle.HandleFeatureTwice | code/CarEntity.cs:619-640 | Sending a flag twice restores every toggle. |
| Lifecycle.HandleFeatureCommutes | code/CarEntity.cs:584-602 | The order of two flags does not matter. |
| Lifecycle.HandleLegacyFeature | code/togg_sedan_car/CarEntity.cs:631-729 | Flag 0 flips only `lights.Item1`, 1 only `Item2`, 2 only the experimental camera. The stop lights are never touched, and other flags change nothing. |
| Lifecycle.HandleLegacyFeatureTwice | code/togg_sedan_car/CarEntity.cs:705-729 | Toggling twice restores the lights and the camera flag. |
| Lifecycle.MinImpactSpeed | code/togg_sedan_car/CarEntity.cs:593-594 | A non-positive configured minimum impact speed falls back to 500. The result is positive. |
| Lifecycle.ImpactDamage | code/togg_sedan_car/CarEntity.cs:596-597 | A non-positive configured damage falls back to 10. The result is positive. |
| Lifecycle.CollisionDamage | code/togg_sedan_car/CarEntity.cs:601-605 | Damage is dealt iff the target is eligible and the speed exceeds the minimum. It then exceeds 1.2 times the base damage, and damage·minimum = speed·base·1.2. |
| Lifecycle.CollisionDamageMonotone | code/togg_sedan_car/CarEntity.cs:601-605 | A harder impact never deals less damage. |
| Orbit.NormalDegrees | code/CarCamera.cs:88 | The wrapped angle lies in [-180, 180) and differs from the input by whole turns. Angles already in range are unchanged. |
| Orbit.AnglesNormal | code/CarCamera.cs:88 | Every component is wrapped as above. |
| Orbit.HasLookInput | code/CarCamera.cs:135 | `|pitch| + |yaw| > 0` holds exactly when either look axis moved. |
| Orbit.ApplyLook | code/CarCamera.cs:151-154 | After look input, the pitch lies in [-25, 70] and the yaw is the wrapped sum. An in-range pitch sum is kept as is. |
| Orbit.OrbitStaysEnabled | code/CarCamera.cs:65-66 | Orbiting is switched off once more than 0.6 s have passed since the last look input, and is otherwise unchanged. |
| Orbit.CarPitchTarget | code/CarCamera.cs:69 | The car-pitch target lies in [-60, 60]. It is 0 when airborne, and otherwise the clamped car pitch, negated when reversing. |
| Orbit.ReturnTargetPitch | code/CarCamera.cs:79 | The return pitch is 10, inside the orbit range. |
| Orbit.ReturnTargetYaw | code/CarCamera.cs:80 | The return yaw is the car's yaw, turned by 180 when reversing. |
| Orbit.ReturnSlerpAmount | code/CarCamera.cs:81 | The return rate lies in [0, 4·dt]. It is 0 when parked and `4·dt` from 400 units/s. |
| Orbit.OrbitSlerpAmount | code/CarCamera.cs:72 | The orbit-follow rate is non-negative and reaches a full step at dt ≥ 1/25. |
| Orbit.FovTarget | code/CarCamera.cs:102 | The field-of-view target lies in [80, 100]. It is 80 at rest and 100 from 1000 units/s. |
| Orbit.FovTargetMonotone | code/CarCamera.cs:102 | A faster car never gets a narrower target. |
| Orbit.NextFov | code/CarCamera.cs:102 | One frame moves the field of view towards the target and keeps it in [80, 100] (or [0, 100]). A long frame lands it on the target. |
| Orbit.FovStaysInRange | code/CarCamera.cs:102-103 | Once in [80, 100], the field of view stays there for any speeds and frame times. |
| Orbit.LongFrameSettlesFov | code/CarCamera.cs:102-103 | From [0, 100], one frame of ≥ 0.25 s brings the field of view into [80, 100] for good. |
| Orbit.ShakeLength | code/CarCamera.cs:175-180 | There is a shake exactly from 1000 units/s. Its amplitude lies in [0, 2], is 0 at the threshold and is the full 2 from 4000 units/s. |
| Orbit.ShakeOffset | code/CarCamera.cs:182-183 | For a noise sample in [0, 1], the offset is at most the amplitude, and 0 at mid-noise. |
| Orbit.ShakeIsBounded | code/CarCamera.cs:179-183 | No shake offset exceeds 2 units. |
| Orbit.ShakenPosition | code/CarCamera.cs:173-185 | Below the threshold the position is unchanged. Otherwise it moves along the camera's right and up axes by the two offsets. |
| Orbit.ClampLength | code/CarCamera.cs:95 | A vector no longer than the maximum is unchanged. Otherwise the result's length is at most the maximum. |
| Orbit.Lerp | code/CarCamera.cs:94 | Each component lies between the two ends. |
| Orbit.DriftedPosition | code/CarCamera.cs:93-95 | The experimental camera's drift past the eased point is at most 2 units long. Small travel is drifted in full. |
| Camera.Placement | code/CarCamera.cs:92-98 | Without the experimental camera, the position is the traced point. With it, the drift is at most 2 units. The historical mode leaves the position alone. |
| Camera.ToggCamera.constructor | code/CarCamera.cs:47-54 | The orbit starts behind the car, not orbiting, with the field of view at 80. |
| Camera.ToggCamera.Mode | code/togg_sedan_car/CarCamera.cs:30-37 | The historical mode starts valid, not orbiting, with its timer, field of view and car pitch at 0. |
| Camera.ToggCamera.Activated | code/togg_sedan_car/CarCamera.cs:39-52 | Activation leaves the camera `Behind` the car: orbiting off, the timer reset, the car and orbit pitch level, the orbit angles behind the car and the field of view at 80. |
| Camera.ToggCamera.ApplyShake | code/CarCamera.cs:173-188 | The new position is `ShakenPosition` of the old one. |
| Camera.ToggCamera.Steer | code/CarCamera.cs:64-89 | Cooldown, car-pitch follow, then either following the look angles or returning to the targets at the return rate, with the angles re-read and wrapped. |
| Camera.ToggCamera.Update | code/CarCamera.cs:56-107 | With no valid car, nothing changes. Otherwise it gives the new value of every field: orbit, rotation, traced point, position, last car position and field of view (also the historical Update, code/togg_sedan_car/CarCamera.cs:54-98). The invariant is kept: car pitch in [-60, 60], field of view in [0, 100] and staying in [80, 100] once there, the look pitch in range while orbiting, and no orbiting in the historical mode. |
| Camera.ToggCamera.BuildInput | code/CarCamera.cs:133-164 | No look input changes nothing. Otherwise `LookApplied` holds: orbiting is on, the timer is reset, and the look angles are re-seeded when starting to orbit. Both the look angles and the rotation get the input, with pitch in [-25, 70]. |
| Sedan.ToggSedan.constructor | code/CarEntity.cs:34-39 | A new car: health 200, empty seat, first use press pending, features off, neutral input. |
| Sedan.ToggSedan.CanPress | code/CarEntity.cs:578-581 | A player may get in iff the seat is empty and the car has not exploded. |
| Sedan.ToggSedan.RemoveDriver | code/CarEntity.cs:484-533 | This is the corrected `RemoveDriver` (see Findings). The owner restarts the exit timer, resets the input and frees the seat, whatever the driver's state. A car that has not exploded can then be entered. A proxy does nothing. |
| Sedan.ToggSedan.Press | code/CarEntity.cs:535-577 | A valid player takes the seat iff more than one second has passed since the last driver left. Always reported handled. |
| Sedan.ToggSedan.SimulateDriver | code/CarEntity.cs:177-200 | The first use press after entering is swallowed, and a later one removes the driver. Otherwise the buttons become the input. The first-press flag is cleared in every case. |
| Sedan.ToggSedan.FixedUpdate | code/CarEntity.cs:162-175 | A destroyed driver is removed with the corrected `RemoveDriver` (see Findings), so the car can be entered again. Only the driving machine of an unexploded car reads buttons and look input. There, a first use press is swallowed, a later one removes the driver (timer restarted, input reset), and otherwise the buttons become the input. Any look input applies `Camera.LookApplied` to the camera, and without look input the camera is unchanged. Otherwise nothing changes. |
| Sedan.ToggSedan.OnDamage | code/CarEntity.cs:691-748 | The new health is `HealthAfterHit`. The car explodes exactly on a hit while wrecked, and on the owner that hit removes the driver with the corrected `RemoveDriver` (see Findings): the seat is freed, the timer restarted and the input reset. On a proxy, and on any hit that does not explode the car, seat, timer and input are unchanged. |
| Sedan.ToggSedan.PrePhysicsStep | code/CarEntity.cs:235-245 | An exploded car, or one without a valid body, gets no tick and its controller is untouched. Otherwise it promises the controller's whole tick (`PhysicsTick.Ticked`): the smoothed fields take one `SmoothStep`, the grounded flags come from the probes, and every command handed to the body has its value. |
| Sedan.ToggSedan.UpdateCamera | code/CarEntity.cs:443-481 | An exploded car, or one whose wheel models are gone, leaves the camera untouched, and so does a machine that is not driving. Otherwise the driving machine updates the camera, using the car's experimental-camera toggle. Without a valid car the camera is unchanged. With one, the whole frame holds (`Camera.Framed`: orbit, car pitch, rotation, placement, shake, last car position and field of view), and the field of view stays in [80, 100]. |
| Sedan.ToggSedan.OnDestroy | code/CarEntity.cs:133-137 | On the owner, the driver is let out before the car goes away, with the corrected `RemoveDriver` (see Findings): the seat is freed, the timer restarted and the input reset. A proxy changes nothing. |
| Sedan.ToggSedan.FeaturesHandler | code/CarEntity.cs:584-602 | The toggles become `HandleFeature` of the old ones, and the same flag again restores them. |
| LegacySedan.ToggSedan.constructor | code/togg_sedan_car/CarEntity.cs:68-69 | A new car: empty seat, all lights off, experimental camera off. |
| LegacySedan.ToggSedan.RemoveDriver | code/togg_sedan_car/CarEntity.cs:506-533 | On the server, the seat is freed, the timer restarted and the input reset, whatever the leaving player's validity. Clients change nothing. |
| LegacySedan.ToggSedan.IsUsable | code/togg_sedan_car/CarEntity.cs:576-579 | The car is usable iff the seat is empty. |
| LegacySedan.ToggSedan.OnUse | code/togg_sedan_car/CarEntity.cs:535-554 | A player gets in only after more than one second since the last driver left, and the camera mode is activated behind the car (`Camera.Behind`: timer reset, orbit and car pitch level, field of view 80). Otherwise nothing changes. Always returns false. |
| LegacySedan.ToggSedan.Tick | code/togg_sedan_car/CarEntity.cs:201-208 | A seated driver who is no longer alive is removed: the seat is freed, the timer restarted and the input reset. Otherwise nothing changes. |
| LegacySedan.ToggSedan.SimulateDriver | code/togg_sedan_car/CarEntity.cs:215-236 | With a valid driver, on the server, a use press removes the driver and otherwise the buttons become the input, with the seat and timer kept. Clients and invalid drivers change nothing. |
| LegacySedan.ToggSedan.OnDestroy | code/togg_sedan_car/CarEntity.cs:169-177 | On the server the seat is empty afterwards. A seated driver is removed, with the timer restarted and the input reset. With the seat already empty, or on a client, seat, timer and input are unchanged. |
| LegacySedan.ToggSedan.OnPrePhysicsStep | code/togg_sedan_car/CarEntity.cs:273-432 | Only the server, with a valid body, runs the controller's tick, and then it promises that whole tick (`PhysicsTick.Ticked`), as the current revision's host does. Otherwise nothing changes. |
| LegacySedan.ToggSedan.FeaturesHandler | code/togg_sedan_car/CarEntity.cs:631-652 | The lights and camera flag become `HandleLegacyFeature` of the old ones, and the stop lights are unchanged. |

## Left out

- Rigid-body effects are reported, not applied. The model returns the drive impulse, suspension impulses, gravity flag and scale, damping coefficients, yaw impulse and air-control pushes. Their 3-D directions, the gravity integration and `VelocityDamping`'s per-axis `Pow` are vector maths the model does not compute.
- Engine reads are inputs: ray traces, body velocities, rotations and the `MathF.Pow` decay factors. Their consistency with the physical world is not modelled. `LerpTo` clamps its fraction, so no bound on the decay factors is needed.
- Vehicle.VehicleController.PrePhysicsStep: requires `dt > 0`. The source divides by `dt` in the probe and would produce infinities at `dt = 0`.
- Wheel.DamperForce, Wheel.CorrectionForce, Wheel.Forces, Wheel.RestingImpulseIsSpring and Wheel.ToggWheel.Raycast (on a physics hit): require `dt > 0` for the same division.
- Vehicle.VehicleController.Handle: the air-control lever offset `50·WorldScale` is a vector in the current revision. The model uses a scalar scale, so a uniform world scale is assumed.
- Camera.ToggCamera.Update: rotations are kept as yaw and pitch angles, and `Rotation.Slerp` is a function parameter. The engine's quaternion read-back (`.Pitch()`, `.Yaw()`, `.Angles()`) is taken to return those angles, and the engine turns yaw by 180 once pitch passes ±90°. Neither is modelled.
- Camera.ToggCamera.Update: the returning branch writes the slerped pitch back into the look angles without re-clamping. This follows the code, so the [-25, 70] look-pitch bound holds only while orbiting.
- Camera.ToggCamera.ApplyShake: the two rotation jitters (`Rotation.FromAxis`) are left out; only the positional shake is modelled. Noise samples are parameters.
- Camera.ToggCamera.Update: the historical camera mode's position is owned by the engine's camera-mode base class, which is not part of this model. There the model changes the position only by the shake.
- Orbit.NormalDegrees: wraps into [-180, 180). The engine's convention at exactly ±180 is not claimed.
- `DoThirdPerson`'s trace and `FrameSimulate`'s copy to the scene camera are left out. The trace end is a parameter.
- The current revision's `OnCollisionHit` computes a damage value but never applies it. Only the damage formula (`Lifecycle.CollisionDamage`) is modelled. Overriding the other body's velocities is left out.
- Left out because they are rendering, sound, UI or networking plumbing:
  - the explosion's visuals (tint, wheel detachment, clones, random velocity);
  - `featuresHandlerHost` sounds, the horn, light and particle entities, dashboard panels;
  - wheel and axle posing in `OnUpdate`/`OnFrame`, and driver animation parameters;
  - the reflection-based weapon hand-off and ownership assignment in `Press`/`RemoveDriver`;
  - spawning, RPC and `[Sync]`/`[Net]` replication, and debug overlays.
- The probes' attach points (42 forward, 32 sideways, 15.5 up in code/CarEntity.cs:412-416; 20 up in code/togg_sedan_car/CarEntity.cs:451-457) are vector maths. They reach the model only through the trace results, which are parameters.
- Sedan.ToggSedan.RemoveDriver: is the corrected removal of the Findings table. It frees the seat even for an invalid driver, where the code as written returns first (line 495).
- Sedan.ToggSedan.FixedUpdate: removes a destroyed driver with the corrected `RemoveDriver` of the Findings table. The code as written would leave that driver seated (`Lifecycle.DestroyedDriverLocksCar`).
- Sedan.ToggSedan.OnDamage: the exploding hit removes the driver with the corrected `RemoveDriver` of the Findings table, not the code as written.
- Sedan.ToggSedan.OnDestroy: lets the driver out with the corrected `RemoveDriver` of the Findings table, not the code as written.
- The current revision's `CarWheel.cs` is not part of this model. Both revisions' controllers use the historical `ToggWheel` model, whose `Raycast` takes the same arguments.
- In the historical `featuresHandler`, `pawn as ToggSedan is var car` always matches, even when the pawn is not a car. The model assumes the caller's pawn is the car.
- Float rounding: all quantities are `real`, and nothing is claimed to be IEEE-exact.
- Drive.YawSpeedFactor: the yaw factor `1 - clamp(speed/1000, 0, 0.6)` starts shrinking from standstill and reaches its floor of 0.4 at 600 units/s. The model follows this code rather than a reading in which tapering starts at 1000 units/s.

## Findings

| source | as written | input that shows it | evidently intended | confidence | as-written member | corrected member |
|---|---|---|---|---|---|---|
| code/CarEntity.cs:495 | `RemoveDriver` returns before `Driver = null` (line 530) when the driver is not valid. `OnFixedUpdate` (lines 165-167) calls it exactly when the driver's object is destroyed (`IsDestroyed`), and a destroyed object is not valid. | A seated player whose object is destroyed: `Driver` stays set and `CanPress` (lines 578-581) stays false, so the car can never be entered again. Also, `timeSinceDriverLeft` is reset on every fixed update. | Free the seat whatever the driver's state, as the historical `RemoveDriver` does by clearing `Driver` before its validity check (code/togg_sedan_car/CarEntity.cs:513-519). | medium, not executed: depends on the engine reporting a destroyed object as invalid | Lifecycle.RemovedDriverAsWritten, Lifecycle.DestroyedDriverLocksCar | Lifecycle.RemovedDriver, Lifecycle.DestroyedDriverFreesCar, Sedan.ToggSedan.RemoveDriver, Sedan.ToggSedan.FixedUpdate, Sedan.ToggSedan.OnDamage, Sedan.ToggSedan.OnDestroy |

=== FILE: camera.dfy ===
/** The sedan's chase camera (`ToggCamera`), in both revisions: the current
    component owned by the car (code/CarCamera.cs) and the historical camera
    mode (code/togg_sedan_car/CarCamera.cs), whose look-input handling is
    commented out, so that it never orbits. Engine reads (the car's pose and
    speed, the camera trace, the noise samples, the camera's axes) arrive in a
    `Frame`; the quaternion slerp is a function parameter. */
module Camera {
  import opened Scalar
  import opened Tuning
  import opened Orbit

  /** What one camera frame reads from the engine and the car. */
  datatype Frame = Frame(
    now: real,                 // Time.Now, in seconds
    dt: real,                  // Time.Delta
    carValid: bool,            // the car and its physics body are valid
    speed: real,               // the car's signed MovementSpeed
    grounded: bool,
    carPitch: real,            // pitch and yaw of the car's rotation
    carYaw: real,
    traced: Vec3,              // end of the camera trace behind the car
    carWorldPosition: Vec3,
    experimental: bool,        // the car's experimental camera flag
    travelLength: real,        // length of lastCarPosition - carWorldPosition
    noiseX: real,              // the two shake noise samples
    noiseY: real,
    right: Vec3,               // the camera rotation's right and up axes
    up: Vec3)

  /** `Rotation.Slerp(from, to, amount)` on the angle the rotation stands for. */
  type Slerp = (real, real, real) -> real

  /** Where the camera is put before the shake: at the traced point behind
      the car, or (experimental camera) eased towards it and drifted against
      the car's travel since the last frame; the historical mode leaves the
      position to the engine. */
  function Placement(rev: Revision, f: Frame, position: Vec3, lastCarPosition: Vec3): (p: Vec3)
    ensures rev.Current? && !f.experimental ==> p == f.traced
    ensures rev.Historical? ==> p == position
    ensures rev.Current? && f.experimental && f.travelLength >= 0.0
            && f.travelLength * f.travelLength == Dot(Sub(lastCarPosition, f.carWorldPosition), Sub(lastCarPosition, f.carWorldPosition)) ==>
              var drift := Sub(p, Lerp(position, f.traced, FollowRate * f.dt));
              Dot(drift, drift) <= MaxDrift * MaxDrift
  {
    if rev.Historical? then position
    else if f.experimental then
      DriftedPosition(position, f.traced, f.dt, Sub(lastCarPosition, f.carWorldPosition), f.travelLength)
    else f.traced
  }

  class ToggCamera {
    const rev: Revision
    var orbitEnabled: bool
    /** When the look input last moved: `timeSinceOrbit` is now minus this. */
    var orbitInputAt: real
    var orbitAngles: Angles
    /** The yaw of `orbitYawRot` and the pitch of `orbitPitchRot`. */
    var orbitYaw: real
    var orbitPitch: real
    var currentFov: real
    var carPitch: real
    var carPosition: Vec3
    var lastCarPosition: Vec3
    var position: Vec3
    var rotation: Angles
    var fieldOfView: real

    /** The car pitch the camera follows stays in [-60, 60], the field of
        view in [0, 100], the look pitch within the orbit range while
        orbiting, and the historical camera never orbits. */
    ghost predicate Valid()
      reads this
    {
      && MinCarPitch <= carPitch <= MaxCarPitch
      && 0.0 <= currentFov <= MaxFov
      && (orbitEnabled ==> MinOrbitPitch <= orbitAngles.pitch <= MaxOrbitPitch)
      && (rev.Historical? ==> !orbitEnabled)
    }

    /** The field of view has reached the driving range. */
    ghost predicate FovSettled()
      reads this
    {
      MinFov <= currentFov
    }

    /** The current component, created with the car: the orbit starts behind
        the car and the field of view at its narrowest. */
    constructor (carYaw: real, now: real)
      ensures rev == Current && Valid() && FovSettled()
      ensures !orbitEnabled && orbitInputAt == now
      ensures orbitYaw == carYaw && orbitPitch == 0.0 && orbitAngles == Angles(0.0, carYaw, 0.0)
      ensures currentFov == MinFov && carPitch == 0.0 && fieldOfView == 0.0
      ensures position == Vec3(0.0, 0.0, 0.0) && lastCarPosition == Vec3(0.0, 0.0, 0.0)
    {
      rev := Current;
      orbitEnabled := false;
      orbitInputAt := now;
      orbitYaw := carYaw;
      orbitPitch := 0.0;
      orbitAngles := Angles(0.0, carYaw, 0.0);
      currentFov := MinFov;
      carPitch := 0.0;
      carPosition := Vec3(0.0, 0.0, 0.0);
      lastCarPosition := Vec3(0.0, 0.0, 0.0);
      position := Vec3(0.0, 0.0, 0.0);
      rotation := Angles(0.0, 0.0, 0.0);
      fieldOfView := 0.0;
    }

    /** The historical camera mode as created, before it is activated: every
        field at its default. */
    constructor Mode()
      ensures rev == Historical && Valid()
      ensures !orbitEnabled && orbitInputAt == 0.0 && currentFov == 0.0 && carPitch == 0.0
    {
      rev := Historical;
      orbitEnabled := false;
      orbitInputAt := 0.0;
      orbitYaw := 0.0;
      orbitPitch := 0.0;
      orbitAngles := Angles(0.0, 0.0, 0.0);
      currentFov := 0.0;
      carPitch := 0.0;
      carPosition := Vec3(0.0, 0.0, 0.0);
      lastCarPosition := Vec3(0.0, 0.0, 0.0);
      position := Vec3(0.0, 0.0, 0.0);
      rotation := Angles(0.0, 0.0, 0.0);
      fieldOfView := 0.0;
    }

    /** `Activated`: the historical mode is reset when a driver gets in, with
        the orbit behind the car and the field of view at its narrowest. */
    method Activated(carYaw: real, now: real)
      requires Valid()
      modifies this`orbitEnabled, this`orbitInputAt, this`orbitAngles, this`orbitYaw, this`orbitPitch,
               this`currentFov, this`carPitch
      ensures Valid() && FovSettled()
      ensures Behind(this, carYaw, now)
    {
      orbitEnabled := false;
      orbitInputAt := now;
      currentFov := MinFov;
      carPitch := 0.0;
      orbitYaw := carYaw;
      orbitPitch := 0.0;
      orbitAngles := Angles(0.0, carYaw, 0.0);
    }

    /** `ApplyShake`: above the shake threshold, jitter the position along the
        camera's right and up axes. */
    method ApplyShake(speedAbs: real, noiseX: real, noiseY: real, right: Vec3, up: Vec3)
      modifies this`position
      ensures position == ShakenPosition(old(position), right, up, speedAbs, noiseX, noiseY)
      ensures speedAbs < ShakeSpeedThreshold ==> position == old(position)
    {
      if speedAbs < ShakeSpeedThreshold {
        return;
      }
      var length := ShakeLength(speedAbs).value;
      var x := ShakeOffset(length, noiseX);
      var y := ShakeOffset(length, noiseY);
      position := Add(position, Add(Scale(right, x), Scale(up, y)));
    }

    /** The orbit step of `Update`: expire the orbit after its cooldown,
        follow the car's pitch, then either follow the look angles or swing
        back behind the car. */
    method Steer(f: Frame, slerp: Slerp)
      requires Valid()
      modifies this`orbitEnabled, this`carPitch, this`orbitYaw, this`orbitPitch, this`orbitAngles
      ensures Valid()
      ensures orbitEnabled == OrbitStaysEnabled(old(orbitEnabled), f.now - orbitInputAt)
      ensures carPitch == LerpTo(old(carPitch), CarPitchTarget(f.grounded, f.carPitch, f.speed),
                                 f.dt * CarPitchSmoothingSpeed(rev))
      ensures orbitEnabled ==>
                && orbitYaw == slerp(old(orbitYaw), orbitAngles.yaw, OrbitSlerpAmount(f.dt))
                && orbitPitch == slerp(old(orbitPitch), orbitAngles.pitch + carPitch, OrbitSlerpAmount(f.dt))
                && orbitAngles == old(orbitAngles)
      ensures !orbitEnabled ==>
                var amount := ReturnSlerpAmount(f.dt, Abs(f.speed));
                && orbitYaw == slerp(old(orbitYaw), ReturnTargetYaw(f.carYaw, f.speed), amount)
                && orbitPitch == slerp(old(orbitPitch), ReturnTargetPitch() + carPitch, amount)
                && orbitAngles == AnglesNormal(Angles(orbitPitch, orbitYaw, old(orbitAngles).roll))
    {
      if orbitEnabled && f.now - orbitInputAt > OrbitCooldown {
        orbitEnabled := false;
      }
      carPitch := LerpTo(carPitch, CarPitchTarget(f.grounded, f.carPitch, f.speed), f.dt * CarPitchSmoothingSpeed(rev));
      if orbitEnabled {
        var amount := OrbitSlerpAmount(f.dt);
        orbitYaw := slerp(orbitYaw, orbitAngles.yaw, amount);
        orbitPitch := slerp(orbitPitch, orbitAngles.pitch + carPitch, amount);
      } else {
        var targetPitch := ReturnTargetPitch();
        var targetYaw := ReturnTargetYaw(f.carYaw, f.speed);
        var amount := ReturnSlerpAmount(f.dt, Abs(f.speed));
        orbitYaw := slerp(orbitYaw, targetYaw, amount);
        orbitPitch := slerp(orbitPitch, targetPitch + carPitch, amount);
        orbitAngles := AnglesNormal(Angles(orbitPitch, orbitYaw, orbitAngles.roll));
      }
    }

    /** `Update`, once per frame: nothing happens without a valid car;
        otherwise the orbit is steered, the camera placed at the traced point
        behind the car (eased and drifted by the experimental camera), the
        field of view eased towards its speed target and the speed shake
        applied. The historical mode leaves the placement to the engine and
        has no experimental camera. */
    method Update(f: Frame, slerp: Slerp)
      requires Valid()
      modifies this
      ensures Valid()
      ensures old(FovSettled()) ==> FovSettled()
      ensures !f.carValid ==> unchanged(this)
      ensures f.carValid ==>
                && orbitEnabled == OrbitStaysEnabled(old(orbitEnabled), f.now - orbitInputAt)
                && orbitInputAt == old(orbitInputAt)
                && carPitch == LerpTo(old(carPitch), CarPitchTarget(f.grounded, f.carPitch, f.speed),
                                      f.dt * CarPitchSmoothingSpeed(rev))
                && (orbitEnabled ==>
                      && orbitYaw == slerp(old(orbitYaw), orbitAngles.yaw, OrbitSlerpAmount(f.dt))
                      && orbitPitch == slerp(old(orbitPitch), orbitAngles.pitch + carPitch, OrbitSlerpAmount(f.dt))
                      && orbitAngles == old(orbitAngles))
                && (!orbitEnabled ==>
                      var amount := ReturnSlerpAmount(f.dt, Abs(f.speed));
                      && orbitYaw == slerp(old(orbitYaw), ReturnTargetYaw(f.carYaw, f.speed), amount)
                      && orbitPitch == slerp(old(orbitPitch), ReturnTargetPitch() + carPitch, amount)
                      && orbitAngles == AnglesNormal(Angles(orbitPitch, orbitYaw, old(orbitAngles).roll)))
                && rotation == Angles(orbitPitch, orbitYaw, 0.0)
                && carPosition == f.traced
                && currentFov == NextFov(old(currentFov), Abs(f.speed), f.dt)
                && fieldOfView == currentFov
                && lastCarPosition == (if rev.Historical? then old(lastCarPosition) else f.carWorldPosition)
                && position == ShakenPosition(Placement(rev, f, old(position), old(lastCarPosition)),
                                              f.right, f.up, Abs(f.speed), f.noiseX, f.noiseY)
    {
      if !f.carValid {
        return;
      }
      Steer(f, slerp);
      rotation := Angles(orbitPitch, orbitYaw, 0.0);
      carPosition := f.traced;
      if rev.Current? {
        if f.experimental {
          position := DriftedPosition(position, carPosition, f.dt,
                                      Sub(lastCarPosition, f.carWorldPosition), f.travelLength);
        } else {
          position := carPosition;
        }
        lastCarPosition := f.carWorldPosition;
      }
      currentFov := NextFov(currentFov, Abs(f.speed), f.dt);
      fieldOfView := currentFov;
      ApplyShake(Abs(f.speed), f.noiseX, f.noiseY, f.right, f.up);
    }

    /** `BuildInput` (current revision): any look input starts or refreshes
        the orbit. Starting it re-reads the look angles from the orbit's
        present rotation; the input is then added to the look angles and to
        the camera rotation, each wrapped and with its pitch limited to the
        orbit range. */
    method BuildInput(look: Angles, now: real)
      requires Valid() && rev.Current?
      modifies this`orbitEnabled, this`orbitInputAt, this`orbitAngles, this`orbitYaw, this`orbitPitch,
               this`rotation
      ensures Valid()
      ensures !HasLookInput(look) ==> unchanged(this)
      ensures HasLookInput(look) ==> LookApplied(this, look, now)
      ensures HasLookInput(look) ==>
                MinOrbitPitch <= orbitAngles.pitch <= MaxOrbitPitch && MinOrbitPitch <= rotation.pitch <= MaxOrbitPitch
    {
      if !HasLookInput(look) {
        return;
      }
      if !orbitEnabled {
        orbitAngles := AnglesNormal(Angles(orbitPitch, orbitYaw, 0.0));
        orbitYaw := orbitAngles.yaw;
        orbitPitch := orbitAngles.pitch;
      }
      orbitEnabled := true;
      orbitInputAt := now;
      orbitAngles := ApplyLook(orbitAngles, look);
      rotation := ApplyLook(rotation, look);
    }
  }

  /** A camera reset behind the car at yaw `carYaw`: not orbiting, the orbit
      timer restarted at `now`, the orbit and car pitch level, and the field of
      view at its narrowest. */
  predicate Behind(c: ToggCamera, carYaw: real, now: real)
    reads c
  {
    && !c.orbitEnabled && c.orbitInputAt == now
    && c.orbitYaw == carYaw && c.orbitPitch == 0.0 && c.orbitAngles == Angles(0.0, carYaw, 0.0)
    && c.currentFov == MinFov && c.carPitch == 0.0
  }

  /** One frame of a valid car, as `ToggCamera.Update` states it clause by
      clause, gathered into one predicate for the car's camera hook: the orbit
      steered (kept or expired, then
      following the look angles or swinging back behind the car), the rotation
      taken from the orbit, the camera placed and shaken, and the field of view
      one step towards its speed target. */
  twostate predicate Framed(c: ToggCamera, f: Frame, slerp: Slerp)
    reads c
  {
    && c.orbitEnabled == OrbitStaysEnabled(old(c.orbitEnabled), f.now - c.orbitInputAt)
    && c.orbitInputAt == old(c.orbitInputAt)
    && c.carPitch == LerpTo(old(c.carPitch), CarPitchTarget(f.grounded, f.carPitch, f.speed),
                            f.dt * CarPitchSmoothingSpeed(c.rev))
    && (c.orbitEnabled ==>
          && c.orbitYaw == slerp(old(c.orbitYaw), c.orbitAngles.yaw, OrbitSlerpAmount(f.dt))
          && c.orbitPitch == slerp(old(c.orbitPitch), c.orbitAngles.pitch + c.carPitch, OrbitSlerpAmount(f.dt))
          && c.orbitAngles == old(c.orbitAngles))
    && (!c.orbitEnabled ==>
          var amount := ReturnSlerpAmount(f.dt, Abs(f.speed));
          && c.orbitYaw == slerp(old(c.orbitYaw), ReturnTargetYaw(f.carYaw, f.speed), amount)
          && c.orbitPitch == slerp(old(c.orbitPitch), ReturnTargetPitch() + c.carPitch, amount)
          && c.orbitAngles == AnglesNormal(Angles(c.orbitPitch, c.orbitYaw, old(c.orbitAngles).roll)))
    && c.rotation == Angles(c.orbitPitch, c.orbitYaw, 0.0)
    && c.carPosition == f.traced
    && c.currentFov == NextFov(old(c.currentFov), Abs(f.speed), f.dt)
    && c.fieldOfView == c.currentFov
    && c.lastCarPosition == (if c.rev.Historical? then old(c.lastCarPosition) else f.carWorldPosition)
    && c.position == ShakenPosition(Placement(c.rev, f, old(c.position), old(c.lastCarPosition)),
                                    f.right, f.up, Abs(f.speed), f.noiseX, f.noiseY)
  }

  /** A look input applied: the orbit is on and its timer restarted; a new
      orbit first re-reads its look angles from the orbit's present rotation;
      the input is added to the look angles and to the camera rotation. */
  twostate predicate LookApplied(c: ToggCamera, look: Angles, now: real)
    reads c
  {
    var seed := if old(c.orbitEnabled) then old(c.orbitAngles)
                else AnglesNormal(Angles(old(c.orbitPitch), old(c.orbitYaw), 0.0));
    && c.orbitEnabled && c.orbitInputAt == now
    && c.orbitAngles == ApplyLook(seed, look)
    && c.orbitYaw == (if old(c.orbitEnabled) then old(c.orbitYaw) else seed.yaw)
    && c.orbitPitch == (if old(c.orbitEnabled) then old(c.orbitPitch) else seed.pitch)
    && c.rotation == ApplyLook(old(c.rotation), look)
  }
}

=== FILE: drive.dfy ===
/** The scalar arithmetic of one physics tick of the vehicle controller
    (`PrePhysicsStep` in code/CarEntity.cs, `OnPrePhysicsStep` in
    code/togg_sedan_car/CarEntity.cs): input composition, drive, stance,
    steering, probe lengths, grounded classification, grip and air control.
    Both revisions compute these the same way up to the constants in Tuning. */
module Drive {
  import opened Scalar
  import opened Wrappers
  import opened Tuning

  /** The driver's controls for one tick. */
  datatype InputState = InputState(throttle: real, turning: real, breaking: real, tilt: real, roll: real)

  /** `InputState.Reset()`: every control released. */
  const Neutral: InputState := InputState(0.0, 0.0, 0.0, 0.0, 0.0)

  /** A control read from two opposing buttons. */
  predicate Digital(x: real)
  {
    x == -1.0 || x == 0.0 || x == 1.0
  }

  /** The shape every input the controller ever holds has. */
  predicate WellFormed(i: InputState)
  {
    && Digital(i.throttle) && Digital(i.turning) && Digital(i.tilt) && Digital(i.roll)
    && (i.breaking == 0.0 || i.breaking == 1.0)
  }

  /** The ranges the controller relies on: every control within [-1, 1], the
      brake within [0, 1]. */
  predicate InRange(i: InputState)
  {
    && -1.0 <= i.throttle <= 1.0 && -1.0 <= i.turning <= 1.0
    && -1.0 <= i.tilt <= 1.0 && -1.0 <= i.roll <= 1.0
    && 0.0 <= i.breaking <= 1.0
  }

  /** The buttons sampled by `SimulateDriver` ("forward", "backward", "left",
      "right", "jump", "run", "duck"). */
  datatype Keys = Keys(forward: bool, backward: bool, left: bool, right: bool, jump: bool, run: bool, duck: bool)

  /** One button adds 1, the opposing one adds -1. */
  function Axis(positive: bool, negative: bool): (a: real)
    ensures Digital(a)
    ensures a == 1.0 <==> positive && !negative
    ensures a == -1.0 <==> negative && !positive
    ensures a == 0.0 <==> positive == negative
  {
    (if positive then 1.0 else 0.0) + (if negative then -1.0 else 0.0)
  }

  /** The input composed from the buttons held this tick. Steering and air roll
      are read from the same two buttons. */
  function ComposeInput(k: Keys): (i: InputState)
    ensures WellFormed(i) && InRange(i)
    ensures i.turning == i.roll
    ensures i.throttle == 1.0 <==> k.forward && !k.backward
    ensures i.throttle == -1.0 <==> k.backward && !k.forward
    ensures i.turning == 1.0 <==> k.left && !k.right
    ensures i.turning == -1.0 <==> k.right && !k.left
    ensures i.breaking == 1.0 <==> k.jump
    ensures i.tilt == 1.0 <==> k.run && !k.duck
    ensures i.tilt == -1.0 <==> k.duck && !k.run
  {
    InputState(Axis(k.forward, k.backward), Axis(k.left, k.right), if k.jump then 1.0 else 0.0,
               Axis(k.run, k.duck), Axis(k.left, k.right))
  }

  lemma NeutralIsWellFormed()
    ensures WellFormed(Neutral) && InRange(Neutral)
    ensures Neutral.throttle == 0.0 && Neutral.turning == 0.0 && Neutral.breaking == 0.0
    ensures Neutral.tilt == 0.0 && Neutral.roll == 0.0
  {
  }

  /** `accelerateDirection`: the throttle, cancelled by the brake. */
  function AccelerateDirection(i: InputState): (d: real)
    ensures 0.0 <= i.breaking <= 1.0 ==> -1.0 <= d <= 1.0
    ensures i.breaking == 1.0 ==> d == 0.0
    ensures i.breaking == 0.0 ==> d == Clamp(i.throttle, -1.0, 1.0)
    ensures WellFormed(i) ==> d == (if i.breaking == 1.0 then 0.0 else i.throttle)
  {
    var t := Clamp(i.throttle, -1.0, 1.0);
    assert 0.0 <= i.breaking <= 1.0 ==> -1.0 <= t * (1.0 - i.breaking) <= 1.0 by {
      if 0.0 <= i.breaking <= 1.0 { ScaleBetween(t, 1.0 - i.breaking); }
    }
    t * (1.0 - i.breaking)
  }

  /** The drive taper: full drive at rest, none from 5000 units/s on. */
  function DriveSpeedFactor(forwardVelocity: real): (f: real)
    ensures 0.0 <= f <= 1.0
    ensures Abs(forwardVelocity) >= 5000.0 ==> f == 0.0
    ensures forwardVelocity == 0.0 ==> f == 1.0
  {
    1.0 - Clamp(Abs(forwardVelocity) / 5000.0, 0.0, 1.0)
  }

  /** Reversing gets half the acceleration. */
  function DriveGain(direction: real): (g: real)
    ensures g > 0.0
    ensures direction < 0.0 ==> g == AccelerateSpeed * 0.5
    ensures direction >= 0.0 ==> g == AccelerateSpeed
  {
    if direction < 0.0 then AccelerateSpeed * 0.5 else AccelerateSpeed
  }

  /** The change of forward speed the rear wheels add this tick. */
  function DriveAcceleration(direction: real, forwardVelocity: real, dt: real): (a: real)
    ensures Abs(forwardVelocity) >= 5000.0 || direction == 0.0 || dt == 0.0 ==> a == 0.0
    ensures dt >= 0.0 && direction >= 0.0 ==> a >= 0.0
    ensures dt >= 0.0 && direction <= 0.0 ==> a <= 0.0
    ensures dt >= 0.0 && -1.0 <= direction <= 1.0 ==> Abs(a) <= AccelerateSpeed * dt
  {
    var f := DriveSpeedFactor(forwardVelocity);
    var g := DriveGain(direction);
    DriveAccelerationBound(f, g, direction, dt);
    f * g * direction * dt
  }

  lemma DriveAccelerationBound(f: real, g: real, direction: real, dt: real)
    requires 0.0 <= f <= 1.0 && 0.0 < g <= AccelerateSpeed
    ensures f * g * direction * dt == direction * (AccelerateSpeed * dt * (f * (g / AccelerateSpeed)))
    ensures dt >= 0.0 ==> Between(f * g * direction * dt, 0.0, direction * (AccelerateSpeed * dt))
    ensures dt >= 0.0 && -1.0 <= direction <= 1.0 ==> Abs(f * g * direction * dt) <= AccelerateSpeed * dt
  {
    var q := f * (g / AccelerateSpeed);
    ScaleBetween(f, g / AccelerateSpeed);
    assert 0.0 <= q <= 1.0;
    var m := AccelerateSpeed * dt;
    assert f * g * direction * dt == direction * (m * q);
    if dt >= 0.0 {
      MulNonNegative(AccelerateSpeed, dt);
      ScaleBetween(m, q);
      var k := m * q;
      assert 0.0 <= k <= m;
      if direction >= 0.0 {
        MulMonotone(direction, 0.0, k);
        MulMonotone(direction, k, m);
      } else {
        MulMonotone(-direction, 0.0, k);
        MulMonotone(-direction, k, m);
        assert (-direction) * k == -(direction * k);
        assert (-direction) * m == -(direction * m);
      }
      if -1.0 <= direction <= 1.0 {
        if direction >= 0.0 { ScaleBetween(k, direction); }
        else {
          ScaleBetween(k, -direction);
          assert 0.0 <= k * (-direction) <= k;
          assert direction * k == -(k * (-direction));
        }
      }
    }
  }

  /** Reversing uses half of the forward acceleration: the same throttle in the
      other direction brings half the change of speed, with the sign flipped. */
  lemma ReverseDriveIsHalf(d: real, forwardVelocity: real, dt: real)
    requires d > 0.0
    ensures DriveAcceleration(-d, forwardVelocity, dt) == -(DriveAcceleration(d, forwardVelocity, dt) / 2.0)
  {
    var f := DriveSpeedFactor(forwardVelocity);
    assert DriveAcceleration(-d, forwardVelocity, dt) == f * (AccelerateSpeed * 0.5) * (-d) * dt;
    assert DriveAcceleration(d, forwardVelocity, dt) == f * AccelerateSpeed * d * dt;
  }

  /** The body lean and pitch the controller aims for this tick. */
  datatype Stance = Stance(tilt: real, lean: real)

  /** `speedFraction`: the share of 500 units/s of forward speed, capped at 1. */
  function SpeedFraction(forwardVelocity: real): (s: real)
    ensures 0.0 <= s <= 1.0
    ensures Abs(forwardVelocity) >= 500.0 ==> s == 1.0
    ensures forwardVelocity == 0.0 ==> s == 0.0
  {
    Min(Abs(forwardVelocity) / 500.0, 1.0)
  }

  /** `targetTilt` and `targetLean`: while at least one axle touched ground on
      the previous tick, tilt with the drive direction and lean into the turn in
      proportion to the speed; otherwise settle to level. */
  function StanceTarget(anyAxleGrounded: bool, accelerateDirection: real, forwardVelocity: real, turnDirection: real): (t: Stance)
    ensures !anyAxleGrounded ==> t == Stance(0.0, 0.0)
    ensures -1.0 <= t.tilt <= 1.0
    ensures Abs(t.lean) <= Abs(turnDirection)
    ensures anyAxleGrounded ==> t.tilt == Clamp(accelerateDirection, -1.0, 1.0)
    ensures anyAxleGrounded && Abs(forwardVelocity) >= 500.0 ==> t.lean == turnDirection
    ensures forwardVelocity == 0.0 ==> t.lean == 0.0
  {
    if anyAxleGrounded then
      var s := SpeedFraction(forwardVelocity);
      ScaleBetween(turnDirection, s);
      Stance(Clamp(accelerateDirection, -1.0, 1.0), s * turnDirection)
    else
      Stance(0.0, 0.0)
  }

  /** The low-speed part of the steering authority: a ramp to 500 units/s. */
  function TurnRamp(speed: real): (r: real)
    ensures r <= 1.0
    ensures speed >= 0.0 ==> 0.0 <= r
    ensures speed >= 500.0 ==> r == 1.0
    ensures speed == 0.0 ==> r == 0.0
  {
    Min(speed / 500.0, 1.0)
  }

  /** `yawSpeedFactor`: steering authority falls with speed to a floor of 0.4,
      reached at 600 units/s. */
  function YawSpeedFactor(speed: real): (y: real)
    ensures 0.4 <= y <= 1.0
    ensures speed <= 0.0 ==> y == 1.0
    ensures speed >= 600.0 ==> y == 0.4
  {
    1.0 - Clamp(speed / 1000.0, 0.0, 0.6)
  }

  /** `CalculateTurnFactor(direction, speed)`; every caller passes a speed
      magnitude. */
  function CalculateTurnFactor(direction: real, speed: real): (r: real)
    ensures speed >= 0.0 ==> Between(r, 0.0, direction)
    ensures speed == 0.0 || direction == 0.0 ==> r == 0.0
    ensures speed >= 600.0 ==> r == direction * 0.4
  {
    var t := TurnRamp(speed);
    var y := YawSpeedFactor(speed);
    assert direction * t * y == direction * (t * y);
    assert speed >= 0.0 ==> Between(direction * (t * y), 0.0, direction) by {
      if speed >= 0.0 {
        ScaleBetween(t, y);
        ScaleBetween(direction, t * y);
      }
    }
    direction * t * y
  }

  /** `turnAmount`: the yaw impulse applied while grounded. It needs the front
      wheels on the ground and follows the travel direction, so steering is
      mirrored when reversing. */
  function TurnAmount(frontGrounded: bool, forwardVelocity: real, turnDirection: real, dt: real): (a: real)
    ensures !frontGrounded || forwardVelocity == 0.0 || dt == 0.0 ==> a == 0.0
    ensures dt >= 0.0 && forwardVelocity > 0.0 ==> Between(a, 0.0, 25.0 * turnDirection * dt)
    ensures dt >= 0.0 && forwardVelocity < 0.0 ==> Between(a, 0.0, -(25.0 * turnDirection * dt))
  {
    if frontGrounded then
      var c := CalculateTurnFactor(turnDirection, Abs(forwardVelocity));
      TurnAmountBound(Sign(forwardVelocity), c, turnDirection, dt);
      Sign(forwardVelocity) * 25.0 * c * dt
    else
      0.0
  }

  lemma TurnAmountBound(s: real, c: real, d: real, dt: real)
    requires s == -1.0 || s == 0.0 || s == 1.0
    requires Between(c, 0.0, d)
    ensures s == 0.0 || dt == 0.0 ==> s * 25.0 * c * dt == 0.0
    ensures dt >= 0.0 && s == 1.0 ==> Between(s * 25.0 * c * dt, 0.0, 25.0 * d * dt)
    ensures dt >= 0.0 && s == -1.0 ==> Between(s * 25.0 * c * dt, 0.0, -(25.0 * d * dt))
  {
    if dt >= 0.0 {
      var m := 25.0 * dt;
      assert s * 25.0 * c * dt == s * (m * c);
      assert 25.0 * d * dt == m * d;
      if d >= 0.0 { MulMonotone(m, 0.0, c); MulMonotone(m, c, d); }
      else { MulMonotone(m, d, c); MulMonotone(m, c, 0.0); }
    }
  }

  /** The four wheels' values, in the order the controller probes them. */
  datatype Quad<T> = Quad(frontLeft: T, frontRight: T, backLeft: T, backRight: T)

  /** The probe lengths `RaycastWheels` passes to the four wheels: the rest
      length, lengthened at the front and shortened at the back by the
      acceleration tilt, and lengthened on the right and shortened on the left
      by the turn lean. */
  function ProbeLengths(rev: Revision, accelerationTilt: real, turnLean: real): (p: Quad<real>)
    ensures p.frontLeft + p.frontRight + p.backLeft + p.backRight == 4.0 * ProbeLength
    ensures (p.frontLeft + p.frontRight) - (p.backLeft + p.backRight) == 4.0 * TiltGain(rev) * accelerationTilt
    ensures (p.frontRight + p.backRight) - (p.frontLeft + p.backLeft) == 4.0 * LeanGain(rev) * turnLean
    ensures p.frontLeft - p.backLeft == p.frontRight - p.backRight
    ensures -1.0 <= accelerationTilt <= 1.0 && -1.0 <= turnLean <= 1.0 ==>
              && ProbeLength - 5.0 <= p.frontLeft <= ProbeLength + 5.0
              && ProbeLength - 5.0 <= p.frontRight <= ProbeLength + 5.0
              && ProbeLength - 5.0 <= p.backLeft <= ProbeLength + 5.0
              && ProbeLength - 5.0 <= p.backRight <= ProbeLength + 5.0
  {
    var tilt := accelerationTilt * TiltGain(rev);
    var lean := turnLean * LeanGain(rev);
    assert -1.0 <= accelerationTilt <= 1.0 && -1.0 <= turnLean <= 1.0 ==> Abs(tilt) <= 2.5 && Abs(lean) <= 2.5 by {
      if -1.0 <= accelerationTilt <= 1.0 && -1.0 <= turnLean <= 1.0 {
        GainBound(accelerationTilt, TiltGain(rev));
        GainBound(turnLean, LeanGain(rev));
      }
    }
    Quad(ProbeLength + tilt - lean, ProbeLength + tilt + lean, ProbeLength - tilt - lean, ProbeLength - tilt + lean)
  }

  lemma GainBound(x: real, g: real)
    requires -1.0 <= x <= 1.0 && 0.0 < g <= 2.5
    ensures Abs(x * g) <= 2.5
  {
    if x >= 0.0 {
      ScaleBetween(g, x);
      assert 0.0 <= x * g <= g;
    } else {
      ScaleBetween(g, -x);
      assert 0.0 <= (-x) * g <= g;
      assert x * g == -((-x) * g);
      assert Abs(x * g) == (-x) * g;
    }
  }

  /** `body.GravityScale`: the engine's gravity is switched off exactly while
      both axles are on the ground (the controller then adds gravity itself). */
  function GravityScale(frontGrounded: bool, backGrounded: bool): (g: real)
    ensures g == 0.0 <==> frontGrounded && backGrounded
    ensures g == 1.0 <==> !(frontGrounded && backGrounded)
  {
    if frontGrounded && backGrounded then 0.0 else 1.0
  }

  /** `vDelta`: how much the velocity direction is trusted for the grip
      estimate, `pow(clamp(|v| / 1000, 0, 1), 5)` with values under 0.01
      dropped to 0. */
  function VelocityTrust(horizontalSpeed: real): (t: real)
    ensures 0.0 <= t <= 1.0
    ensures horizontalSpeed <= 0.0 ==> t == 0.0
    ensures horizontalSpeed >= 1000.0 ==> t == 1.0
    ensures horizontalSpeed <= 250.0 ==> t == 0.0
  {
    var x := Clamp(horizontalSpeed / 1000.0, 0.0, 1.0);
    var p := Clamp(x * x * x * x * x, 0.0, 1.0);
    assert horizontalSpeed <= 250.0 ==> p < 0.01 by {
      if horizontalSpeed <= 250.0 { FifthPowerSmall(x); }
    }
    if p < 0.01 then 0.0 else p
  }

  lemma FifthPowerSmall(x: real)
    requires 0.0 <= x <= 0.25
    ensures x * x * x * x * x < 0.01
  {
    var p2 := x * x;
    PowerStep(x, x, 0.25);
    var p3 := p2 * x;
    PowerStep(x, p2, 0.0625);
    var p4 := p3 * x;
    PowerStep(x, p3, 0.015625);
    PowerStep(x, p4, 0.00390625);
  }

  /** One more factor of at most a quarter: the bound shrinks fourfold. */
  lemma PowerStep(x: real, p: real, bound: real)
    requires 0.0 <= x <= 0.25 && 0.0 <= p <= bound
    ensures 0.0 <= p * x <= bound * 0.25
  {
    MulNonNegative(p, x);
    MulMonotone(x, p, bound);
    MulMonotone(bound, x, 0.25);
    assert p * x == x * p;
    assert x * bound == bound * x;
  }

  /** The grip sample of one tick: the alignment of heading and horizontal
      velocity, clamped to [0, 1], blended towards 1 as the velocity is trusted
      less (at low speed). */
  function GripTarget(headingDot: real, trust: real): (g: real)
    ensures 0.0 <= g <= 1.0
    ensures trust <= 0.0 ==> g == 1.0
    ensures trust >= 1.0 ==> g == Clamp(headingDot, 0.0, 1.0)
    ensures headingDot >= 1.0 ==> g == 1.0
  {
    LerpTo(Clamp(headingDot, 0.0, 1.0), 1.0, 1.0 - trust)
  }

  /** The better heading and velocity agree, the higher the grip sample. */
  lemma GripTargetMonotone(dot1: real, dot2: real, trust: real)
    requires dot1 <= dot2
    ensures GripTarget(dot1, trust) <= GripTarget(dot2, trust)
  {
    var a1 := Clamp(dot1, 0.0, 1.0);
    var a2 := Clamp(dot2, 0.0, 1.0);
    var f := Clamp(1.0 - trust, 0.0, 1.0);
    assert GripTarget(dot1, trust) == a1 + Portion(1.0 - a1, f);
    assert GripTarget(dot2, trust) == a2 + Portion(1.0 - a2, f);
    BlendTowardsOneMonotone(a1, a2, f);
  }

  lemma BlendTowardsOneMonotone(a1: real, a2: real, f: real)
    requires a1 <= a2 && 0.0 <= f <= 1.0
    ensures a1 + (1.0 - a1) * f <= a2 + (1.0 - a2) * f
  {
    assert a1 + (1.0 - a1) * f == f + (1.0 - f) * a1;
    assert a2 + (1.0 - a2) * f == f + (1.0 - f) * a2;
    MulMonotone(1.0 - f, a1, a2);
  }

  /** `body.AngularDamping`: interpolated by grip up to 5 while fully grounded,
      a fixed 0.5 otherwise. */
  function AngularDamping(fullyGrounded: bool, grip: real): (d: real)
    ensures 0.0 <= d <= 5.0
    ensures !fullyGrounded ==> d == 0.5
    ensures fullyGrounded && grip <= 0.0 ==> d == 0.0
    ensures fullyGrounded && grip >= 1.0 ==> d == 5.0
  {
    if fullyGrounded then LerpTo(0.0, 5.0, grip) else 0.5
  }

  /** The forward damping coefficient while grounded: 0.1 when rolling, 0.9
      with the brake held. */
  function ForwardGrip(breaking: real): (g: real)
    ensures 0.1 <= g <= 0.9
    ensures breaking <= 0.0 ==> g == 0.1
    ensures breaking >= 1.0 ==> g == 0.9
  {
    LerpTo(0.1, 0.9, breaking)
  }

  /** One off-centre air-control force: where it is applied (a signed offset
      along the chassis' side or forward axis) and its downward magnitude. */
  datatype AirPush = AirPush(lever: real, push: real)

  /** The air-control forces of one tick, and whether the angular velocity is
      damped afterwards. */
  datatype AirControl = AirControl(roll: Option<AirPush>, tilt: Option<AirPush>, dampen: bool)

  const NoAirControl: AirControl := AirControl(None, None, false)

  /** Air control: only when allowed and while the smoothed roll or tilt is
      non-zero. Roll pushes four times harder, with the raw input, when the
      short probe beneath the pushed side finds ground; tilt only pushes when
      that probe finds nothing. */
  function AirControlForces(canAirControl: bool, airRoll: real, airTilt: real, i: InputState,
                            liftProbeHit: bool, mass: real, offset: real): (c: AirControl)
    ensures !canAirControl || (airRoll == 0.0 && airTilt == 0.0) ==> c == NoAirControl
    ensures c.dampen <==> c.roll.Some? || c.tilt.Some?
    ensures c.roll.Some? ==> Clamp(i.roll, -1.0, 1.0) != 0.0
    ensures c.tilt.Some? ==> !liftProbeHit && Clamp(i.tilt, -1.0, 1.0) != 0.0
    ensures mass >= 0.0 && c.roll.Some? ==> c.roll.value.push >= 0.0
    ensures mass >= 0.0 && c.tilt.Some? ==> c.tilt.value.push >= 0.0
    ensures c.roll.Some? ==> c.roll.value.lever == offset * (if liftProbeHit then Clamp(i.roll, -1.0, 1.0) else airRoll)
    ensures c.tilt.Some? ==> c.tilt.value.lever == offset * airTilt
  {
    if canAirControl && (airRoll != 0.0 || airTilt != 0.0) then
      var rollInput := Clamp(i.roll, -1.0, 1.0);
      var roll :=
        if rollInput != 0.0 then
          var force := if liftProbeHit then 400.0 else 100.0;
          var r := if liftProbeHit then rollInput else airRoll;
          assert mass >= 0.0 ==> r * (r * (mass * force)) >= 0.0 by {
            if mass >= 0.0 { SquareTimesNonNegative(r, mass * force); }
          }
          Some(AirPush(offset * r, r * (r * (mass * force))))
        else None;
      var tilt :=
        if !liftProbeHit && Clamp(i.tilt, -1.0, 1.0) != 0.0 then
          assert mass >= 0.0 ==> airTilt * (airTilt * (mass * 200.0)) >= 0.0 by {
            if mass >= 0.0 { SquareTimesNonNegative(airTilt, mass * 200.0); }
          }
          Some(AirPush(offset * airTilt, airTilt * (airTilt * (mass * 200.0))))
        else None;
      AirControl(roll, tilt, roll.Some? || tilt.Some?)
    else
      NoAirControl
  }

  lemma SquareTimesNonNegative(r: real, m: real)
    requires m >= 0.0
    ensures r * (r * m) >= 0.0
  {
    assert r * (r * m) == (r * r) * m;
    MulNonNegative(r * r, m);
  }
}

=== FILE: legacy_sedan.dfy ===
/** The car entity of the historical revision (`ToggSedan` in
    code/togg_sedan_car/CarEntity.cs): server-authoritative seat handling, the
    light and camera toggles, and the server-only physics tick. Its camera is
    the historical camera mode, activated when a player gets in. */
module LegacySedan {
  import opened Wrappers
  import opened Tuning
  import opened Drive
  import opened Vehicle
  import opened PhysicsTick
  import opened Lifecycle
  import opened Orbit
  import opened Camera

  class ToggSedan {
    const controller: VehicleController
    const camera: ToggCamera
    var driver: Option<Player>
    /** When the last driver left: `timeSinceDriverLeft` is now minus this. */
    var driverLeftAt: real
    var lights: Lights
    var experimentalCamera: bool

    ghost predicate Valid()
      reads this, controller, camera
    {
      && controller.Valid() && controller.rev == Historical
      && camera.Valid() && camera.rev == Historical
    }

    constructor ()
      ensures Valid() && fresh(controller) && fresh(camera)
      ensures driver == None && driverLeftAt == 0.0
      ensures lights == (false, false, false) && !experimentalCamera
    {
      controller := new VehicleController(Historical);
      camera := new ToggCamera.Mode();
      driver := None;
      driverLeftAt := 0.0;
      lights := (false, false, false);
      experimentalCamera := false;
    }

    /** `RemoveDriver`, on the server: the seat is freed and the exit timer
        restarted before the leaving player's object is looked at, so even an
        invalid player leaves an empty seat. Clients do nothing. */
    method RemoveDriver(isServer: bool, now: real)
      requires Valid()
      modifies this`driver, this`driverLeftAt, controller`input
      ensures Valid()
      ensures !isServer ==>
                driver == old(driver) && driverLeftAt == old(driverLeftAt) && controller.input == old(controller.input)
      ensures isServer ==> driver == None && driverLeftAt == now && controller.input == Neutral
    {
      if !isServer {
        return;
      }
      driver := None;
      driverLeftAt := now;
      controller.input := Neutral;
      NeutralIsWellFormed();
    }

    /** `IsUsable`: the car can be used while its seat is empty. */
    method IsUsable() returns (r: bool)
      ensures r <==> driver.None?
    {
      r := driver.None?;
    }

    /** `OnUse`: a player (an animated entity, `None` for any other user) gets
        in once more than a second has passed since the last driver left, and
        the camera mode is activated behind the car. The use is never reported
        as continuing. */
    method OnUse(user: Option<Player>, now: real, carYaw: real) returns (continuing: bool)
      requires Valid()
      modifies this`driver, camera`orbitEnabled, camera`orbitInputAt, camera`orbitAngles, camera`orbitYaw,
               camera`orbitPitch, camera`currentFov, camera`carPitch
      ensures Valid()
      ensures !continuing
      ensures user.Some? && MayTakeSeat(true, now - driverLeftAt) ==> driver == user && Behind(camera, carYaw, now)
      ensures !(user.Some? && MayTakeSeat(true, now - driverLeftAt)) ==> driver == old(driver) && unchanged(camera)
    {
      if user.Some? && now - driverLeftAt > 1.0 {
        driver := user;
        camera.Activated(carYaw, now);
      }
      return false;
    }

    /** The server tick: a driver who is no longer alive is put out. */
    method Tick(driverAlive: bool, now: real)
      requires Valid()
      modifies this`driver, this`driverLeftAt, controller`input
      ensures Valid()
      ensures old(driver).Some? && !driverAlive ==> driver == None && driverLeftAt == now && controller.input == Neutral
      ensures old(driver).None? || driverAlive ==>
                driver == old(driver) && driverLeftAt == old(driverLeftAt) && controller.input == old(controller.input)
    {
      if driver.Some? && !driverAlive {
        RemoveDriver(true, now);
      }
    }

    /** `SimulateDriver`: with a valid driver, the server either lets the
        driver out on a use press or turns the held buttons into the
        controller's input. */
    method SimulateDriver(driverValid: bool, isServer: bool, usePressed: bool, keys: Keys, now: real)
      requires Valid()
      modifies this`driver, this`driverLeftAt, controller`input
      ensures Valid()
      ensures old(driver).None? || !driverValid || !isServer ==>
                driver == old(driver) && driverLeftAt == old(driverLeftAt) && controller.input == old(controller.input)
      ensures old(driver).Some? && driverValid && isServer && usePressed ==>
                driver == None && driverLeftAt == now && controller.input == Neutral
      ensures old(driver).Some? && driverValid && isServer && !usePressed ==>
                driver == old(driver) && driverLeftAt == old(driverLeftAt) && controller.input == ComposeInput(keys)
    {
      if driver.None? || !driverValid {
        return;
      }
      if isServer {
        if usePressed {
          RemoveDriver(true, now);
          return;
        }
        controller.input := ComposeInput(keys);
      }
    }

    /** `OnDestroy`: the server lets the driver out. */
    method OnDestroy(isServer: bool, now: real)
      requires Valid()
      modifies this`driver, this`driverLeftAt, controller`input
      ensures Valid()
      ensures isServer ==> driver == None
      ensures isServer && old(driver).Some? ==> driverLeftAt == now && controller.input == Neutral
      ensures !isServer || old(driver).None? ==>
                driver == old(driver) && driverLeftAt == old(driverLeftAt) && controller.input == old(controller.input)
    {
      if isServer && driver.Some? {
        RemoveDriver(isServer, now);
      }
    }

    /** `OnPrePhysicsStep`: only the server, and only with a valid physics
        body, runs the controller's tick. */
    method OnPrePhysicsStep(isServer: bool, bodyValid: bool, t: Tick) returns (cmd: Option<BodyCommands>)
      requires Valid() && t.dt > 0.0
      modifies controller, controller.frontLeft, controller.frontRight, controller.backLeft, controller.backRight
      ensures Valid()
      ensures cmd.None? <==> !isServer || !bodyValid
      ensures cmd.None? ==>
                && unchanged(controller) && unchanged(controller.frontLeft) && unchanged(controller.frontRight)
                && unchanged(controller.backLeft) && unchanged(controller.backRight)
      ensures cmd.Some? ==> Ticked(controller, t, cmd.value)
    {
      if !isServer || !bodyValid {
        return None;
      }
      var commands := controller.PrePhysicsStep(t);
      return Some(commands);
    }

    /** `featuresHandler`: the driver's console command toggles a light or the
        experimental camera. */
    method FeaturesHandler(flag: int)
      modifies this`lights, this`experimentalCamera
      ensures (lights, experimentalCamera) == HandleLegacyFeature(old(lights), old(experimentalCamera), flag)
      ensures lights.2 == old(lights).2
    {
      var r := HandleLegacyFeature(lights, experimentalCamera, flag);
      lights := r.0;
      experimentalCamera := r.1;
    }
  }
}

=== FILE: lifecycle.dfy ===
/** The car's life outside the physics tick: its health and explosion, who sits
    in the driver's seat, the feature toggles the driver's panel sends and the
    damage a collision deals. These are decisions on values; the host classes in
    Sedan and LegacySedan keep the state they act on. */
module Lifecycle {
  import opened Scalar
  import opened Wrappers

  /** Health of a freshly spawned car (current revision). */
  const InitialHealth: real := 200.0

  /** The sentinel health of a car that has exploded. */
  const ExplodedHealth: real := -1.0

  predicate IsExploded(health: real)
  {
    health == ExplodedHealth
  }

  /** The health values a car can have: intact (positive), wrecked and waiting
      for the blow that explodes it (0), or exploded (-1). */
  predicate HealthShape(health: real)
  {
    health >= 0.0 || health == ExplodedHealth
  }

  /** `OnDamage`: an intact car loses the damage, floored at 0; a wrecked car
      explodes on the next hit, whatever its amount; an exploded car ignores
      hits. */
  function HealthAfterHit(health: real, damage: real): (h: real)
    ensures health > 0.0 && damage < health ==> h == health - damage
    ensures health > 0.0 && damage >= health ==> h == 0.0
    ensures health > 0.0 ==> h >= 0.0
    ensures health == 0.0 ==> IsExploded(h)
    ensures health < 0.0 ==> h == health
    ensures HealthShape(health) ==> HealthShape(h)
    ensures damage >= 0.0 ==> h <= health
  {
    if health > 0.0 && health != ExplodedHealth then
      if health - damage <= 0.0 then 0.0 else health - damage
    else if health == 0.0 then
      ExplodedHealth
    else
      health
  }

  /** `OnDamage` explodes the car (and removes the driver) exactly when it hits
      a wrecked car. */
  predicate HitExplodes(health: real)
  {
    health == 0.0
  }

  /** Health after a run of hits. */
  function HealthAfterHits(health: real, damages: seq<real>): (h: real)
    decreases |damages|
  {
    if |damages| == 0 then health
    else HealthAfterHits(HealthAfterHit(health, damages[0]), damages[1..])
  }

  /** Every run of hits keeps health within its three shapes. */
  lemma {:induction false} HitsKeepHealthShape(health: real, damages: seq<real>)
    requires HealthShape(health)
    ensures HealthShape(HealthAfterHits(health, damages))
    decreases |damages|
  {
    if |damages| > 0 {
      HitsKeepHealthShape(HealthAfterHit(health, damages[0]), damages[1..]);
    }
  }

  /** Explosion is final: no run of hits brings an exploded car back. */
  lemma {:induction false} ExplodedIsFinal(health: real, damages: seq<real>)
    requires IsExploded(health)
    ensures IsExploded(HealthAfterHits(health, damages))
    decreases |damages|
  {
    if |damages| > 0 {
      ExplodedIsFinal(HealthAfterHit(health, damages[0]), damages[1..]);
    }
  }

  /** Hits of non-negative damage never raise health. */
  lemma {:induction false} HitsNeverHeal(health: real, damages: seq<real>)
    requires forall i :: 0 <= i < |damages| ==> damages[i] >= 0.0
    ensures HealthAfterHits(health, damages) <= health
    decreases |damages|
  {
    if |damages| > 0 {
      var next := HealthAfterHit(health, damages[0]);
      HitsNeverHeal(next, damages[1..]);
    }
  }

  /** An intact car never explodes from a single hit: the hit that wrecks it
      leaves it at 0, and only a later hit explodes it. */
  lemma {:induction false} ExplosionNeedsTwoHits(health: real, damages: seq<real>)
    requires health > 0.0
    requires IsExploded(HealthAfterHits(health, damages))
    ensures |damages| >= 2
  {
    assert |damages| != 0;
    if |damages| == 1 {
      assert HealthAfterHits(health, damages) == HealthAfterHits(HealthAfterHit(health, damages[0]), []);
    }
  }

  /** A hit that takes all remaining health, followed by any other hit,
      explodes an intact car, and it stays exploded. */
  lemma WreckThenExplode(health: real, damages: seq<real>)
    requires health > 0.0 && |damages| >= 2 && damages[0] >= health
    ensures IsExploded(HealthAfterHits(health, damages))
  {
    assert HealthAfterHit(health, damages[0]) == 0.0;
    var rest := damages[1..];
    assert HealthAfterHits(health, damages) == HealthAfterHits(0.0, rest);
    assert HealthAfterHits(0.0, rest) == HealthAfterHits(ExplodedHealth, rest[1..]);
    ExplodedIsFinal(ExplodedHealth, rest[1..]);
  }

  /** Players are told apart by an identity. */
  type Player = nat

  /** `CanPress` (current revision): the car can be entered while the seat is
      empty and it has not exploded. */
  predicate CanEnter(driver: Option<Player>, health: real)
  {
    driver.None? && !IsExploded(health)
  }

  /** The seat after `RemoveDriver` as written in code/CarEntity.cs: the
      driver is cleared only while it is still a valid object, so a driver
      whose object was destroyed stays in the seat. */
  function RemovedDriverAsWritten(driver: Option<Player>, driverValid: bool): (d: Option<Player>)
    ensures driver.None? || driverValid ==> d.None?
    ensures driver.Some? && !driverValid ==> d == driver
  {
    if driver.None? || !driverValid then driver else None
  }

  /** The fixed update calls `RemoveDriver` exactly for a destroyed driver,
      whose object is no longer valid; as written, the seat stays taken and the
      car can never be entered again. */
  lemma DestroyedDriverLocksCar(p: Player, health: real)
    ensures !CanEnter(RemovedDriverAsWritten(Some(p), false), health)
    ensures RemovedDriverAsWritten(Some(p), false) == Some(p)
  {
  }

  /** The seat after the removal the fixed update intends: whatever state the
      driver's object is in, the seat is freed. */
  function RemovedDriver(driver: Option<Player>, driverValid: bool): (d: Option<Player>)
    ensures d.None?
    ensures driver.Some? && driverValid ==> d == RemovedDriverAsWritten(driver, driverValid)
  {
    None
  }

  /** With the intended removal, a car that has not exploded can be entered
      again after its driver is destroyed. */
  lemma DestroyedDriverFreesCar(driver: Option<Player>, health: real)
    requires !IsExploded(health)
    ensures CanEnter(RemovedDriver(driver, false), health)
    ensures driver.Some? ==> RemovedDriver(driver, false) != RemovedDriverAsWritten(driver, false)
  {
  }

  /** Entering needs a valid player and more than one second since the last
      driver left (both revisions). */
  predicate MayTakeSeat(playerValid: bool, sinceDriverLeft: real)
  {
    playerValid && sinceDriverLeft > 1.0
  }

  /** The driver's feature toggles of the current revision. */
  datatype Features = Features(shortLights: bool, headLights: bool, experimentalCamera: bool)

  const NoFeatures: Features := Features(false, false, false)

  /** `featuresHandler(flag)` (current revision): 0 toggles the short lights,
      1 the headlights, 3 the experimental camera; 2 sounds the horn and every
      other flag does nothing, so neither changes a toggle. */
  function HandleFeature(f: Features, flag: int): (g: Features)
    ensures flag == 0 ==> g.shortLights == !f.shortLights && g.headLights == f.headLights && g.experimentalCamera == f.experimentalCamera
    ensures flag == 1 ==> g.headLights == !f.headLights && g.shortLights == f.shortLights && g.experimentalCamera == f.experimentalCamera
    ensures flag == 3 ==> g.experimentalCamera == !f.experimentalCamera && g.shortLights == f.shortLights && g.headLights == f.headLights
    ensures flag != 0 && flag != 1 && flag != 3 ==> g == f
  {
    match flag
    case 0 => f.(shortLights := !f.shortLights)
    case 1 => f.(headLights := !f.headLights)
    case 3 => f.(experimentalCamera := !f.experimentalCamera)
    case _ => f
  }

  /** Sending the same flag twice restores every toggle. */
  lemma HandleFeatureTwice(f: Features, flag: int)
    ensures HandleFeature(HandleFeature(f, flag), flag) == f
  {
  }

  /** Flags act on separate toggles, so their order does not matter. */
  lemma HandleFeatureCommutes(f: Features, flag1: int, flag2: int)
    ensures HandleFeature(HandleFeature(f, flag1), flag2) == HandleFeature(HandleFeature(f, flag2), flag1)
  {
  }

  /** The light toggles of the historical revision: short lights, headlights
      and stop lights. */
  type Lights = (bool, bool, bool)

  /** `featuresHandler(flag)` (historical revision): 0 toggles the front
      (short) lights, 1 the headlights, 2 the experimental camera; the stop
      lights are never touched. */
  function HandleLegacyFeature(lights: Lights, experimentalCamera: bool, flag: int): (r: (Lights, bool))
    ensures r.0.2 == lights.2
    ensures flag == 0 ==> r == ((!lights.0, lights.1, lights.2), experimentalCamera)
    ensures flag == 1 ==> r == ((lights.0, !lights.1, lights.2), experimentalCamera)
    ensures flag == 2 ==> r == (lights, !experimentalCamera)
    ensures flag != 0 && flag != 1 && flag != 2 ==> r == (lights, experimentalCamera)
  {
    match flag
    case 0 => ((!lights.0, lights.1, lights.2), experimentalCamera)
    case 1 => ((lights.0, !lights.1, lights.2), experimentalCamera)
    case 2 => (lights, !experimentalCamera)
    case _ => (lights, experimentalCamera)
  }

  /** Sending the same flag twice restores the lights and the camera toggle. */
  lemma HandleLegacyFeatureTwice(lights: Lights, experimentalCamera: bool, flag: int)
    ensures var once := HandleLegacyFeature(lights, experimentalCamera, flag);
            HandleLegacyFeature(once.0, once.1, flag) == (lights, experimentalCamera)
  {
  }

  /** The impact speed below which a collision does no damage; a configured
      value that is not positive falls back to 500. */
  function MinImpactSpeed(configured: real): (m: real)
    ensures m > 0.0
    ensures configured > 0.0 ==> m == configured
    ensures configured <= 0.0 ==> m == 500.0
  {
    if configured <= 0.0 then 500.0 else configured
  }

  /** The base damage of an impact; a configured value that is not positive
      falls back to 10. */
  function ImpactDamage(configured: real): (d: real)
    ensures d > 0.0
    ensures configured > 0.0 ==> d == configured
    ensures configured <= 0.0 ==> d == 10.0
  {
    if configured <= 0.0 then 10.0 else configured
  }

  /** The damage a collision deals to the other object: only to an eligible
      object (valid, not this car, and of the kind the revision damages) and
      only above the minimum impact speed; it is then the base damage scaled by
      how far the speed exceeds that minimum, and by 1.2. */
  function CollisionDamage(configuredMinSpeed: real, configuredDamage: real, speed: real, eligible: bool): (d: Option<real>)
    ensures d.Some? <==> eligible && speed > MinImpactSpeed(configuredMinSpeed)
    ensures d.Some? ==> d.value > ImpactDamage(configuredDamage) * 1.2
    ensures d.Some? ==> d.value * MinImpactSpeed(configuredMinSpeed) == speed * ImpactDamage(configuredDamage) * 1.2
  {
    var m := MinImpactSpeed(configuredMinSpeed);
    var base := ImpactDamage(configuredDamage);
    if speed > m && eligible then
      var damage := speed / m * base * 1.2;
      ScaledImpact(speed, m, base, damage);
      Some(damage)
    else
      None
  }

  lemma ScaledImpact(s: real, m: real, b: real, d: real)
    requires m > 0.0 && s > m && b > 0.0
    requires d == s / m * b * 1.2
    ensures d > b * 1.2
    ensures d * m == s * b * 1.2
  {
    var q := s / m;
    QuotientAboveOne(s, m);
    assert q * m == s;
    MulPositive(q - 1.0, b * 1.2);
    assert (q - 1.0) * (b * 1.2) == q * b * 1.2 - b * 1.2;
    assert q * b * 1.2 * m == (q * m) * b * 1.2;
  }

  lemma DivideMonotone(a: real, b: real, m: real)
    requires a <= b && m > 0.0
    ensures a / m <= b / m
  {
    assert b / m - a / m == (b - a) / m;
  }

  lemma QuotientAboveOne(s: real, m: real)
    requires m > 0.0 && s > m
    ensures s / m > 1.0
  {
    assert m / m == 1.0;
    assert s / m - m / m == (s - m) / m;
  }

  /** A harder impact never deals less damage. */
  lemma CollisionDamageMonotone(configuredMinSpeed: real, configuredDamage: real, speed1: real, speed2: real)
    requires speed1 <= speed2
    requires CollisionDamage(configuredMinSpeed, configuredDamage, speed1, true).Some?
    ensures CollisionDamage(configuredMinSpeed, configuredDamage, speed2, true).Some?
    ensures CollisionDamage(configuredMinSpeed, configuredDamage, speed1, true).value
            <= CollisionDamage(configuredMinSpeed, configuredDamage, speed2, true).value
  {
    var m := MinImpactSpeed(configuredMinSpeed);
    var k := ImpactDamage(configuredDamage) * 1.2;
    DivideMonotone(speed1, speed2, m);
    MulNonNegative(speed2 / m - speed1 / m, k);
  }
}

=== FILE: orbit.dfy ===
/** The per-frame arithmetic of the chase camera (`ToggCamera` in
    code/CarCamera.cs and code/togg_sedan_car/CarCamera.cs): its constants,
    angle wrapping, the orbit targets and blend amounts, the speed-driven field
    of view, the speed shake and the experimental camera's drift. Rotations are
    kept as their angles; the engine's quaternion slerp is left to the caller. */
module Orbit {
  import opened Scalar
  import opened Wrappers

  const MinFov: real := 80.0
  const MaxFov: real := 100.0
  const MaxFovSpeed: real := 1000.0
  const FovSmoothingSpeed: real := 4.0
  const OrbitCooldown: real := 0.6
  const OrbitSmoothingSpeed: real := 25.0
  const OrbitReturnSmoothingSpeed: real := 4.0
  const MinOrbitPitch: real := -25.0
  const MaxOrbitPitch: real := 70.0
  const FixedOrbitPitch: real := 10.0
  const MaxOrbitReturnSpeed: real := 100.0
  const MinCarPitch: real := -60.0
  const MaxCarPitch: real := 60.0
  const ShakeSpeedThreshold: real := 1000.0
  const ShakeMaxSpeed: real := 2500.0
  const ShakeMaxLength: real := 2.0
  /** The experimental camera's follow rate and the largest drift it adds in
      one frame. */
  const FollowRate: real := 5.0
  const MaxDrift: real := 2.0

  /** Euler angles in degrees. */
  datatype Angles = Angles(pitch: real, yaw: real, roll: real)

  datatype Vec3 = Vec3(x: real, y: real, z: real)

  function Add(a: Vec3, b: Vec3): Vec3
  {
    Vec3(a.x + b.x, a.y + b.y, a.z + b.z)
  }

  function Sub(a: Vec3, b: Vec3): Vec3
  {
    Vec3(a.x - b.x, a.y - b.y, a.z - b.z)
  }

  function Scale(a: Vec3, k: real): Vec3
  {
    Vec3(a.x * k, a.y * k, a.z * k)
  }

  function Dot(a: Vec3, b: Vec3): real
  {
    a.x * b.x + a.y * b.y + a.z * b.z
  }

  /** A difference of whole turns. */
  predicate WholeTurns(d: real)
  {
    (d / 360.0).Floor as real == d / 360.0
  }

  /** An angle wrapped into one turn around zero, [-180, 180). */
  function NormalDegrees(a: real): (r: real)
    ensures -180.0 <= r < 180.0
    ensures WholeTurns(a - r)
    ensures -180.0 <= a < 180.0 ==> r == a
  {
    var k := ((a + 180.0) / 360.0).Floor;
    assert (a - (a - 360.0 * k as real)) / 360.0 == k as real;
    a - 360.0 * k as real
  }

  /** `Angles.Normal`: every component wrapped. */
  function AnglesNormal(a: Angles): (n: Angles)
    ensures -180.0 <= n.pitch < 180.0 && -180.0 <= n.yaw < 180.0 && -180.0 <= n.roll < 180.0
    ensures WholeTurns(a.pitch - n.pitch) && WholeTurns(a.yaw - n.yaw) && WholeTurns(a.roll - n.roll)
  {
    Angles(NormalDegrees(a.pitch), NormalDegrees(a.yaw), NormalDegrees(a.roll))
  }

  /** Whether the analogue look input moved this frame. */
  function HasLookInput(look: Angles): (moved: bool)
    ensures moved <==> look.pitch != 0.0 || look.yaw != 0.0
  {
    Abs(look.pitch) + Abs(look.yaw) > 0.0
  }

  /** Look input added to a set of angles, which are then wrapped and their
      pitch limited to the orbit range. */
  function ApplyLook(a: Angles, look: Angles): (r: Angles)
    ensures MinOrbitPitch <= r.pitch <= MaxOrbitPitch
    ensures -180.0 <= r.yaw < 180.0 && WholeTurns(a.yaw + look.yaw - r.yaw)
    ensures r.roll == NormalDegrees(a.roll)
    ensures MinOrbitPitch <= a.pitch + look.pitch <= MaxOrbitPitch ==> r.pitch == a.pitch + look.pitch
  {
    var n := AnglesNormal(Angles(a.pitch + look.pitch, a.yaw + look.yaw, a.roll));
    n.(pitch := Clamp(n.pitch, MinOrbitPitch, MaxOrbitPitch))
  }

  /** Orbiting stays on only while the last look input is recent enough. */
  function OrbitStaysEnabled(orbitEnabled: bool, sinceOrbit: real): (r: bool)
    ensures r ==> orbitEnabled
    ensures orbitEnabled && sinceOrbit <= OrbitCooldown ==> r
    ensures sinceOrbit > OrbitCooldown ==> !r
  {
    if orbitEnabled && sinceOrbit > OrbitCooldown then false else orbitEnabled
  }

  /** The car pitch the camera follows: the car's own pitch, limited to
      [-60, 60] and mirrored when reversing, while the car is grounded; level
      otherwise. */
  function CarPitchTarget(grounded: bool, carPitch: real, speed: real): (t: real)
    ensures MinCarPitch <= t <= MaxCarPitch
    ensures !grounded ==> t == 0.0
    ensures grounded && speed >= 0.0 ==> t == Clamp(carPitch, MinCarPitch, MaxCarPitch)
    ensures grounded && speed < 0.0 ==> t == -Clamp(carPitch, MinCarPitch, MaxCarPitch)
  {
    if grounded then Clamp(carPitch, MinCarPitch, MaxCarPitch) * (if speed < 0.0 then -1.0 else 1.0) else 0.0
  }

  /** The pitch the orbit returns to when the player stops looking around. */
  function ReturnTargetPitch(): (p: real)
    ensures p == FixedOrbitPitch
    ensures MinOrbitPitch <= p <= MaxOrbitPitch
  {
    Clamp(FixedOrbitPitch, MinOrbitPitch, MaxOrbitPitch)
  }

  /** The yaw the orbit returns to: behind the car, or in front of it while
      reversing. */
  function ReturnTargetYaw(carYaw: real, speed: real): (y: real)
    ensures speed >= 0.0 ==> y == carYaw
    ensures speed < 0.0 ==> y - carYaw == 180.0
  {
    if speed < 0.0 then carYaw + 180.0 else carYaw
  }

  /** How far the orbit swings back this frame: in proportion to the speed,
      capped at four times the frame time, and not at all when parked. */
  function ReturnSlerpAmount(dt: real, speedAbs: real): (s: real)
    ensures dt >= 0.0 ==> 0.0 <= s <= OrbitReturnSmoothingSpeed * dt
    ensures speedAbs <= 0.0 ==> s == 0.0
    ensures speedAbs >= MaxOrbitReturnSpeed * OrbitReturnSmoothingSpeed ==> s == OrbitReturnSmoothingSpeed * dt
  {
    if MaxOrbitReturnSpeed > 0.0 then
      var k := Clamp(speedAbs / MaxOrbitReturnSpeed, 0.0, OrbitReturnSmoothingSpeed);
      assert dt >= 0.0 ==> 0.0 <= dt * k <= OrbitReturnSmoothingSpeed * dt by {
        if dt >= 0.0 {
          MulNonNegative(dt, k);
          MulMonotone(dt, k, OrbitReturnSmoothingSpeed);
        }
      }
      dt * k
    else
      1.0
  }

  /** How far the orbit follows the player's look angles this frame. */
  function OrbitSlerpAmount(dt: real): (s: real)
    ensures dt >= 0.0 ==> s >= 0.0
    ensures dt >= 1.0 / OrbitSmoothingSpeed ==> s >= 1.0
  {
    dt * OrbitSmoothingSpeed
  }

  /** The field of view the camera widens towards: from 80 at rest to 100 at
      1000 units/s and beyond. */
  function FovTarget(speedAbs: real): (t: real)
    ensures MinFov <= t <= MaxFov
    ensures speedAbs <= 0.0 ==> t == MinFov
    ensures speedAbs >= MaxFovSpeed ==> t == MaxFov
  {
    LerpTo(MinFov, MaxFov, speedAbs / MaxFovSpeed)
  }

  /** The faster the car, the wider the target field of view. */
  lemma FovTargetMonotone(speed1: real, speed2: real)
    requires speed1 <= speed2
    ensures FovTarget(speed1) <= FovTarget(speed2)
  {
    var f1 := Clamp(speed1 / MaxFovSpeed, 0.0, 1.0);
    var f2 := Clamp(speed2 / MaxFovSpeed, 0.0, 1.0);
    assert f1 <= f2;
    assert FovTarget(speed1) == MinFov + Portion(MaxFov - MinFov, f1);
    assert FovTarget(speed2) == MinFov + Portion(MaxFov - MinFov, f2);
  }

  /** One frame of field-of-view smoothing. */
  function NextFov(currentFov: real, speedAbs: real, dt: real): (f: real)
    ensures MinFov <= currentFov <= MaxFov ==> MinFov <= f <= MaxFov
    ensures 0.0 <= currentFov <= MaxFov ==> 0.0 <= f <= MaxFov
    ensures dt * FovSmoothingSpeed >= 1.0 ==> f == FovTarget(speedAbs)
    ensures Between(f, currentFov, FovTarget(speedAbs))
  {
    if MaxFovSpeed > 0.0 then LerpTo(currentFov, FovTarget(speedAbs), dt * FovSmoothingSpeed) else MaxFov
  }

  /** The field of view after a run of frames, each a speed and a time step. */
  function FovAfterFrames(currentFov: real, frames: seq<(real, real)>): (f: real)
    decreases |frames|
  {
    if |frames| == 0 then currentFov
    else FovAfterFrames(NextFov(currentFov, frames[0].0, frames[0].1), frames[1..])
  }

  /** Once within [80, 100], the field of view stays there, whatever the
      speeds and frame times. */
  lemma {:induction false} FovStaysInRange(currentFov: real, frames: seq<(real, real)>)
    requires MinFov <= currentFov <= MaxFov
    ensures MinFov <= FovAfterFrames(currentFov, frames) <= MaxFov
    decreases |frames|
  {
    if |frames| > 0 {
      FovStaysInRange(NextFov(currentFov, frames[0].0, frames[0].1), frames[1..]);
    }
  }

  /** A frame of a quarter second or more lands the field of view on its
      target, and from a start in [0, 100] it is in [80, 100] from then on. */
  lemma {:induction false} LongFrameSettlesFov(currentFov: real, frames: seq<(real, real)>, k: nat)
    requires 0.0 <= currentFov <= MaxFov
    requires k < |frames| && frames[k].1 * FovSmoothingSpeed >= 1.0
    ensures MinFov <= FovAfterFrames(currentFov, frames) <= MaxFov
    decreases |frames|
  {
    var next := NextFov(currentFov, frames[0].0, frames[0].1);
    if k == 0 {
      FovStaysInRange(next, frames[1..]);
    } else {
      LongFrameSettlesFov(next, frames[1..], k - 1);
    }
  }

  /** The shake amplitude: none below 1000 units/s, then growing linearly to
      its cap of 2 at 4000 units/s. */
  function ShakeLength(speedAbs: real): (l: Option<real>)
    ensures l.None? <==> speedAbs < ShakeSpeedThreshold
    ensures l.Some? ==> 0.0 <= l.value <= ShakeMaxLength
    ensures l.Some? && speedAbs >= 4000.0 ==> l.value == ShakeMaxLength
    ensures speedAbs == ShakeSpeedThreshold ==> l == Some(0.0)
  {
    if speedAbs < ShakeSpeedThreshold then None
    else Some(Clamp((speedAbs - ShakeSpeedThreshold) / (ShakeMaxSpeed - ShakeSpeedThreshold), 0.0, ShakeMaxLength))
  }

  /** One axis of the shake offset, from a noise sample. */
  function ShakeOffset(length: real, noise: real): (x: real)
    ensures 0.0 <= noise <= 1.0 && length >= 0.0 ==> Abs(x) <= length
    ensures noise == 0.5 ==> x == 0.0
  {
    var s := (0.5 - noise) * 2.0;
    assert 0.0 <= noise <= 1.0 && length >= 0.0 ==> Abs(s * length) <= length by {
      if 0.0 <= noise <= 1.0 && length >= 0.0 {
        if s >= 0.0 {
          MulMonotone(length, 0.0, s);
          MulMonotone(length, s, 1.0);
          assert 0.0 <= s * length <= length;
        } else {
          MulMonotone(length, 0.0, -s);
          MulMonotone(length, -s, 1.0);
          assert (-s) * length == -(s * length);
          assert 0.0 <= -(s * length) <= length;
        }
      }
    }
    s * length
  }

  /** The position after the speed shake: moved along the camera's right and
      up axes by the two noise-driven offsets, or left alone below the shake
      threshold. */
  function ShakenPosition(p: Vec3, right: Vec3, up: Vec3, speedAbs: real, noiseX: real, noiseY: real): (r: Vec3)
    ensures speedAbs < ShakeSpeedThreshold ==> r == p
    ensures speedAbs >= ShakeSpeedThreshold ==>
              var l := ShakeLength(speedAbs).value;
              r == Add(p, Add(Scale(right, ShakeOffset(l, noiseX)), Scale(up, ShakeOffset(l, noiseY))))
  {
    match ShakeLength(speedAbs)
    case None => p
    case Some(l) => Add(p, Add(Scale(right, ShakeOffset(l, noiseX)), Scale(up, ShakeOffset(l, noiseY))))
  }

  /** For noise samples in [0, 1], neither shake offset exceeds 2 units. */
  lemma ShakeIsBounded(speedAbs: real, noise: real)
    requires 0.0 <= noise <= 1.0 && speedAbs >= ShakeSpeedThreshold
    ensures Abs(ShakeOffset(ShakeLength(speedAbs).value, noise)) <= ShakeMaxLength
  {
  }

  /** `ClampLength(max)`, given the vector's length: the vector itself when no
      longer than max, otherwise scaled down to length max. */
  function ClampLength(v: Vec3, length: real, max: real): (r: Vec3)
    ensures length <= max ==> r == v
    ensures 0.0 <= max && 0.0 <= length && length * length == Dot(v, v) ==> Dot(r, r) <= max * max
  {
    if length <= max || length <= 0.0 then v
    else
      assert 0.0 <= max && length * length == Dot(v, v) ==> Dot(Scale(v, max / length), Scale(v, max / length)) == max * max by {
        if 0.0 <= max && length * length == Dot(v, v) { ScaledLength(v, length, max); }
      }
      assert 0.0 <= max && 0.0 <= length && length * length == Dot(v, v) ==> max * max <= max * max;
      Scale(v, max / length)
  }

  lemma ScaledLength(v: Vec3, length: real, max: real)
    requires length > max >= 0.0 && length * length == Dot(v, v)
    ensures Dot(Scale(v, max / length), Scale(v, max / length)) == max * max
  {
    var k := max / length;
    assert Dot(Scale(v, k), Scale(v, k)) == k * k * Dot(v, v);
    assert k * length == max;
    assert k * k * (length * length) == (k * length) * (k * length);
  }

  /** `Vector3.Lerp` with its fraction clamped to [0, 1]. */
  function Lerp(a: Vec3, b: Vec3, t: real): (r: Vec3)
    ensures Between(r.x, a.x, b.x) && Between(r.y, a.y, b.y) && Between(r.z, a.z, b.z)
    ensures t >= 1.0 ==> r == b
    ensures t <= 0.0 ==> r == a
  {
    Vec3(LerpTo(a.x, b.x, t), LerpTo(a.y, b.y, t), LerpTo(a.z, b.z, t))
  }

  /** The experimental camera: ease towards the traced camera point and add
      one tenth of the car's travel since the last frame, backwards, capped at
      2 units. `travelLength` is the length of that travel. */
  function DriftedPosition(position: Vec3, target: Vec3, dt: real, travel: Vec3, travelLength: real): (r: Vec3)
    ensures travelLength <= 10.0 * MaxDrift ==> r == Add(Lerp(position, target, FollowRate * dt), Scale(travel, 0.1))
    ensures travelLength >= 0.0 && travelLength * travelLength == Dot(travel, travel) ==>
              var drift := Sub(r, Lerp(position, target, FollowRate * dt));
              Dot(drift, drift) <= MaxDrift * MaxDrift
  {
    var step := Scale(travel, 0.1);
    var stepLength := travelLength / 10.0;
    assert travelLength * travelLength == Dot(travel, travel) ==> stepLength * stepLength == Dot(step, step) by {
      assert Dot(step, step) == 0.01 * Dot(travel, travel);
    }
    var base := Lerp(position, target, FollowRate * dt);
    var r := Add(base, ClampLength(step, stepLength, MaxDrift));
    assert Sub(r, base) == ClampLength(step, stepLength, MaxDrift);
    r
  }
}

=== FILE: physics_tick.dfy ===
/** What a car entity's physics hook promises when it runs the vehicle
    controller's tick (`PrePhysicsStep` in code/CarEntity.cs and
    `OnPrePhysicsStep` in code/togg_sedan_car/CarEntity.cs). */
module PhysicsTick {
  import opened Scalar
  import opened Wrappers
  import opened Wheel
  import opened Drive
  import opened Vehicle

  /** Everything one physics tick of a valid body does to a controller and
      tells the body: the postcondition of `VehicleController.PrePhysicsStep`
      gathered into one predicate, so that the car entities that hand their
      physics hook to the controller can promise the whole tick. */
  twostate predicate Ticked(c: VehicleController, t: Tick, new cmd: BodyCommands)
    reads c, c.frontLeft, c.frontRight, c.backLeft, c.backRight
  {
    // the input is kept; the drive direction, steering, stance, air and grip fields follow their targets
    && Smoothed(c, t)
    // the grounded flags come from this tick's probes, all four of which run
    && (c.frontWheelsOnGround <==> t.traces.frontLeft.hit || t.traces.frontRight.hit)
    && (c.backWheelsOnGround <==> t.traces.backLeft.hit || t.traces.backRight.hit)
    && (c.grounded <==> c.frontWheelsOnGround || c.backWheelsOnGround)
    && (var lengths := ProbeLengths(c.rev, c.accelerationTilt, c.turnLean);
        && c.wheelDistances == Quad(GroundDistance(lengths.frontLeft, t.traces.frontLeft),
                                    GroundDistance(lengths.frontRight, t.traces.frontRight),
                                    GroundDistance(lengths.backLeft, t.traces.backLeft),
                                    GroundDistance(lengths.backRight, t.traces.backRight))
        && Probed(c.frontLeft, lengths.frontLeft, true, t.traces.frontLeft, t.scale, t.mass,
                  t.pointVelocities.frontLeft, t.dt, cmd.suspension.frontLeft)
        && Probed(c.frontRight, lengths.frontRight, true, t.traces.frontRight, t.scale, t.mass,
                  t.pointVelocities.frontRight, t.dt, cmd.suspension.frontRight)
        && Probed(c.backLeft, lengths.backLeft, true, t.traces.backLeft, t.scale, t.mass,
                  t.pointVelocities.backLeft, t.dt, cmd.suspension.backLeft)
        && Probed(c.backRight, lengths.backRight, true, t.traces.backRight, t.scale, t.mass,
                  t.pointVelocities.backRight, t.dt, cmd.suspension.backRight))
    && c.wheelSpeed == (if c.grounded then t.groundedForwardVelocity else old(c.wheelSpeed))
    && c.movementSpeed == t.finalForwardVelocity
    // what the body is told
    && cmd.driveImpulse == (if old(c.backWheelsOnGround) then DriveAcceleration(c.accelerateDirection, t.forwardVelocity, t.dt) else 0.0)
    && (cmd.addGravity <==> c.frontWheelsOnGround && c.backWheelsOnGround)
    && cmd.gravityScale == GravityScale(c.frontWheelsOnGround, c.backWheelsOnGround)
    && cmd.linearDamping == 0.0
    && cmd.angularDamping == AngularDamping(c.frontWheelsOnGround && c.backWheelsOnGround, c.grip)
    && cmd.yawImpulse == (if c.grounded then TurnAmount(c.frontWheelsOnGround, t.groundedForwardVelocity, c.turnDirection, t.dt) else 0.0)
    && cmd.velocityDamping == (if c.grounded then Some((ForwardGrip(c.input.breaking), c.grip)) else None)
    && cmd.air == AirControlForces(!c.grounded && !t.airProbeHit, c.airRoll, c.airTilt, c.input, t.liftProbeHit, t.mass, 50.0 * t.scale)
  }
}

=== FILE: scalar.dfy ===
/** Scalar helpers of the engine's maths library (MathX / MathF) on which every
    per-tick and per-frame update of the vehicle and its camera is built. */
module Scalar {

  /** `v.Clamp(lo, hi)`: the value limited to the closed interval [lo, hi]. */
  function Clamp(v: real, lo: real, hi: real): (r: real)
    requires lo <= hi
    ensures lo <= r <= hi
    ensures lo <= v <= hi ==> r == v
    ensures v < lo ==> r == lo
    ensures v > hi ==> r == hi
  {
    if v < lo then lo else if v > hi then hi else v
  }

  function Abs(x: real): (r: real)
    ensures r >= 0.0
    ensures r == x || r == -x
  {
    if x < 0.0 then -x else x
  }

  function Min(a: real, b: real): (r: real)
    ensures r <= a && r <= b
    ensures r == a || r == b
  {
    if a <= b then a else b
  }

  /** `MathF.Sign`: -1, 0 or 1 by the sign of x. */
  function Sign(x: real): (r: real)
    ensures r == -1.0 || r == 0.0 || r == 1.0
    ensures r * x == Abs(x)
    ensures r == 0.0 <==> x == 0.0
  {
    if x < 0.0 then -1.0 else if x > 0.0 then 1.0 else 0.0
  }

  /** True when v lies between a and b, in whichever order they come. */
  predicate Between(v: real, a: real, b: real)
  {
    (a <= v <= b) || (b <= v <= a)
  }

  /** `from.LerpTo(to, fraction)`: the engine clamps the fraction to [0, 1] before
      interpolating, so the result always lies between the two end points. */
  function LerpTo(from: real, to: real, fraction: real): (r: real)
    ensures Between(r, from, to)
    ensures fraction <= 0.0 ==> r == from
    ensures fraction >= 1.0 ==> r == to
    ensures from == to ==> r == from
  {
    var f := Clamp(fraction, 0.0, 1.0);
    from + Portion(to - from, f)
  }

  /** The part `d * f` of a distance d covered by a fraction f of [0, 1]. */
  function Portion(d: real, f: real): (p: real)
    requires 0.0 <= f <= 1.0
    ensures Between(p, 0.0, d)
    ensures f == 0.0 ==> p == 0.0
    ensures f == 1.0 ==> p == d
  {
    ScaleBetween(d, f);
    d * f
  }

  /** Scaling by a fraction of [0, 1] keeps a value between 0 and itself. */
  lemma ScaleBetween(d: real, f: real)
    requires 0.0 <= f <= 1.0
    ensures Between(d * f, 0.0, d)
    ensures Between(f * d, 0.0, d)
  {
    if d >= 0.0 {
      MulMonotone(d, 0.0, f);
      MulMonotone(d, f, 1.0);
    } else {
      MulMonotone(-d, 0.0, f);
      MulMonotone(-d, f, 1.0);
      assert (-d) * f == -(d * f);
    }
  }

  lemma MulMonotone(a: real, b: real, c: real)
    requires a >= 0.0 && b <= c
    ensures a * b <= a * c
  {
    MulNonNegative(a, c - b);
    assert a * (c - b) == a * c - a * b;
  }

  lemma MulPositive(a: real, b: real)
    requires a > 0.0 && b > 0.0
    ensures a * b > 0.0
  {
  }

  lemma MulNonNegative(a: real, b: real)
    requires a >= 0.0 && b >= 0.0
    ensures a * b >= 0.0
  {
  }

  /** The value after one smoothing step per sample: this is what successive
      ticks do to a smoothed field whose target stays the same. */
  function SmoothRepeatedly(from: real, to: real, fractions: seq<real>): (r: real)
    decreases |fractions|
  {
    if |fractions| == 0 then from
    else SmoothRepeatedly(LerpTo(from, to, fractions[0]), to, fractions[1..])
  }

  /** However many ticks run and whatever their time steps, a smoothed field
      never overshoots its target and never leaves the range it started from:
      exponential smoothing is stable for every tick rate. */
  lemma {:induction false} SmoothRepeatedlyBetween(from: real, to: real, fractions: seq<real>)
    ensures Between(SmoothRepeatedly(from, to, fractions), from, to)
    decreases |fractions|
  {
    if |fractions| > 0 {
      var next := LerpTo(from, to, fractions[0]);
      SmoothRepeatedlyBetween(next, to, fractions[1..]);
    }
  }

  /** A field that already sits on its target stays there tick after tick. */
  lemma {:induction false} SmoothRepeatedlyAtRest(v: real, fractions: seq<real>)
    ensures SmoothRepeatedly(v, v, fractions) == v
    decreases |fractions|
  {
    if |fractions| > 0 {
      SmoothRepeatedlyAtRest(v, fractions[1..]);
    }
  }

  /** A full-weight sample (the fraction reaches 1) lands the field on its target
      and it stays there afterwards. */
  lemma {:induction false} SmoothRepeatedlyReachesTarget(from: real, to: real, fractions: seq<real>, k: nat)
    requires k < |fractions| && fractions[k] >= 1.0
    ensures SmoothRepeatedly(from, to, fractions) == to
    decreases |fractions|
  {
    if k == 0 {
      SmoothRepeatedlyAtRest(to, fractions[1..]);
    } else {
      SmoothRepeatedlyReachesTarget(LerpTo(from, to, fractions[0]), to, fractions[1..], k - 1);
    }
  }
}

=== FILE: sedan.dfy ===
/** The car component of the current revision (`ToggSedan` in
    code/CarEntity.cs): the driver's seat, health and explosion, the feature
    toggles, and the calls it makes into the vehicle controller and the chase
    camera on each fixed update, physics tick and frame. Network roles, input
    buttons and object validity are engine reads and arrive as parameters. */
module Sedan {
  import opened Scalar
  import opened Wrappers
  import opened Tuning
  import opened Drive
  import opened Vehicle
  import opened PhysicsTick
  import opened Lifecycle
  import opened Orbit
  import opened Camera

  class ToggSedan {
    const controller: VehicleController
    const camera: ToggCamera
    var health: real
    var driver: Option<Player>
    /** When the last driver left: `timeSinceDriverLeft` is now minus this. */
    var driverLeftAt: real
    /** Set on entering, so that the use press that seated the driver does
        not also throw them out. */
    var firstTimeToDriver: bool
    var features: Features

    /** The controller and camera are the current revision's and keep their
        own invariants; the field of view is in its driving range; health is
        intact, wrecked or exploded. */
    ghost predicate Valid()
      reads this, controller, camera
    {
      && controller.Valid() && controller.rev == Current
      && camera.Valid() && camera.rev == Current && camera.FovSettled()
      && HealthShape(health)
    }

    /** The car as spawned, with its camera set behind it. */
    constructor (carYaw: real, now: real)
      ensures Valid() && fresh(controller) && fresh(camera)
      ensures health == InitialHealth && driver == None && driverLeftAt == 0.0
      ensures firstTimeToDriver && features == NoFeatures
      ensures controller.input == Neutral
    {
      controller := new VehicleController(Current);
      camera := new ToggCamera(carYaw, now);
      health := InitialHealth;
      driver := None;
      driverLeftAt := 0.0;
      firstTimeToDriver := true;
      features := NoFeatures;
    }

    /** `CanPress`: whether a player may get in. */
    method CanPress() returns (r: bool)
      ensures r <==> CanEnter(driver, health)
      ensures r ==> driver.None? && !IsExploded(health)
    {
      r := driver.None? && !IsExploded(health);
    }

    /** `RemoveDriver`, on the owning side: restart the exit timer, release
        the controls and free the seat, whatever state the driver's object is
        in. A network proxy does nothing. */
    method RemoveDriver(isProxy: bool, driverValid: bool, now: real)
      requires Valid()
      modifies this`driver, this`driverLeftAt, controller`input
      ensures Valid()
      ensures isProxy ==>
                driver == old(driver) && driverLeftAt == old(driverLeftAt) && controller.input == old(controller.input)
      ensures !isProxy ==> driver == None && driverLeftAt == now && controller.input == Neutral
      ensures !isProxy && !IsExploded(health) ==> CanEnter(driver, health)
    {
      if isProxy {
        return;
      }
      driverLeftAt := now;
      controller.input := Neutral;
      NeutralIsWellFormed();
      driver := RemovedDriver(driver, driverValid);
    }

    /** `Press`: a valid player gets in when more than a second has passed
        since the last driver left. The press is always reported handled. */
    method Press(playerValid: bool, player: Player, now: real) returns (handled: bool)
      modifies this`firstTimeToDriver, this`driver
      ensures handled
      ensures MayTakeSeat(playerValid, now - old(driverLeftAt)) ==> driver == Some(player) && firstTimeToDriver
      ensures !MayTakeSeat(playerValid, now - old(driverLeftAt)) ==>
                driver == old(driver) && firstTimeToDriver == old(firstTimeToDriver)
    {
      if playerValid && now - driverLeftAt > 1.0 {
        firstTimeToDriver := true;
        driver := Some(player);
      }
      return true;
    }

    /** `SimulateDriver`: the first use press after entering is swallowed;
        any later one makes the driver leave. Without a use press the buttons
        become the controller's input. */
    method SimulateDriver(usePressed: bool, keys: Keys, driverValid: bool, now: real)
      requires Valid()
      modifies this`firstTimeToDriver, this`driver, this`driverLeftAt, controller`input
      ensures Valid()
      ensures !firstTimeToDriver
      ensures usePressed && old(firstTimeToDriver) ==>
                driver == old(driver) && driverLeftAt == old(driverLeftAt) && controller.input == old(controller.input)
      ensures usePressed && !old(firstTimeToDriver) ==>
                driver == None && driverLeftAt == now && controller.input == Neutral
      ensures !usePressed ==>
                driver == old(driver) && driverLeftAt == old(driverLeftAt) && controller.input == ComposeInput(keys)
    {
      if usePressed {
        if firstTimeToDriver {
          firstTimeToDriver := false;
          return;
        }
        RemoveDriver(false, driverValid, now);
        return;
      }
      firstTimeToDriver := false;
      controller.input := ComposeInput(keys);
    }

    /** Whether this machine drives the car: it owns the car, a driver is
        seated and that driver's connection is the local one. */
    predicate AmIDriver(isProxy: bool, driverIsLocal: bool)
      reads this
    {
      !isProxy && driver.Some? && driverIsLocal
    }

    /** `OnFixedUpdate`: a destroyed driver is removed; then, on the driving
        machine of a car that has not exploded, the driver's buttons and look
        input are read. */
    method FixedUpdate(driverDestroyed: bool, isProxy: bool, driverIsLocal: bool, usePressed: bool, keys: Keys,
                       look: Angles, now: real)
      requires Valid()
      modifies this`firstTimeToDriver, this`driver, this`driverLeftAt, controller`input,
               camera`orbitEnabled, camera`orbitInputAt, camera`orbitAngles, camera`orbitYaw, camera`orbitPitch,
               camera`rotation
      ensures Valid()
      ensures old(driver).Some? && driverDestroyed && !isProxy ==>
                driver == None && driverLeftAt == now && controller.input == Neutral && unchanged(camera)
      ensures old(driver).Some? && driverDestroyed && !isProxy && !IsExploded(health) ==> CanEnter(driver, health)
      ensures var driving := !isProxy && old(driver).Some? && !driverDestroyed && driverIsLocal && !IsExploded(health);
              && (driving && !usePressed ==>
                    && driver == old(driver) && driverLeftAt == old(driverLeftAt)
                    && controller.input == ComposeInput(keys) && !firstTimeToDriver)
              && (driving && usePressed && old(firstTimeToDriver) ==>
                    && driver == old(driver) && driverLeftAt == old(driverLeftAt)
                    && controller.input == old(controller.input) && !firstTimeToDriver)
              && (driving && usePressed && !old(firstTimeToDriver) ==>
                    driver == None && driverLeftAt == now && controller.input == Neutral && !firstTimeToDriver)
              && (driving && HasLookInput(look) ==> LookApplied(camera, look, now))
              && (driving && !HasLookInput(look) ==> unchanged(camera))
              && (!driving && !(old(driver).Some? && driverDestroyed && !isProxy) ==>
                    && driver == old(driver) && driverLeftAt == old(driverLeftAt)
                    && controller.input == old(controller.input) && firstTimeToDriver == old(firstTimeToDriver)
                    && unchanged(camera))
    {
      if driver.Some? && driverDestroyed {
        RemoveDriver(isProxy, false, now);
      }
      if AmIDriver(isProxy, driverIsLocal) && !IsExploded(health) {
        SimulateDriver(usePressed, keys, true, now);
        camera.BuildInput(look, now);
      }
    }

    /** `OnDamage`: the hit is taken off the health; a hit on a wrecked car
        removes the driver and explodes it. */
    method OnDamage(amount: real, isProxy: bool, driverValid: bool, now: real)
      requires Valid()
      modifies this`health, this`driver, this`driverLeftAt, controller`input
      ensures Valid()
      ensures health == HealthAfterHit(old(health), amount)
      ensures HitExplodes(old(health)) <==> IsExploded(health) && !IsExploded(old(health))
      ensures HitExplodes(old(health)) && !isProxy ==> driver == None && driverLeftAt == now && controller.input == Neutral
      ensures HitExplodes(old(health)) && isProxy ==>
                driver == old(driver) && driverLeftAt == old(driverLeftAt) && controller.input == old(controller.input)
      ensures !HitExplodes(old(health)) ==>
                driver == old(driver) && driverLeftAt == old(driverLeftAt) && controller.input == old(controller.input)
    {
      if health > 0.0 && health != ExplodedHealth {
        health := health - amount;
        if health <= 0.0 {
          health := 0.0;
        }
      } else if health == 0.0 {
        RemoveDriver(isProxy, driverValid, now);
        health := ExplodedHealth;
      }
    }

    /** `PrePhysicsStep`: an exploded car, or one whose physics body is gone,
        is left alone; otherwise the controller runs its tick and hands back
        what the body is to be told. */
    method PrePhysicsStep(bodyValid: bool, t: Tick) returns (cmd: Option<BodyCommands>)
      requires Valid() && t.dt > 0.0
      modifies controller, controller.frontLeft, controller.frontRight, controller.backLeft, controller.backRight
      ensures Valid()
      ensures cmd.None? <==> IsExploded(health) || !bodyValid
      ensures cmd.None? ==>
                && unchanged(controller) && unchanged(controller.frontLeft) && unchanged(controller.frontRight)
                && unchanged(controller.backLeft) && unchanged(controller.backRight)
      ensures cmd.Some? ==> Ticked(controller, t, cmd.value)
    {
      if IsExploded(health) || !bodyValid {
        return None;
      }
      var commands := controller.PrePhysicsStep(t);
      return Some(commands);
    }

    /** `OnUpdate` as far as the camera goes: an exploded car returns at once,
        and so does a car whose wheel models are gone; otherwise the driving
        machine updates the chase camera, which reads the car's experimental
        camera toggle. */
    method UpdateCamera(isProxy: bool, driverIsLocal: bool, wheelsValid: bool, f: Frame, slerp: Slerp)
      requires Valid()
      modifies camera
      ensures Valid()
      ensures IsExploded(health) || !wheelsValid || !AmIDriver(isProxy, driverIsLocal) ==> unchanged(camera)
      ensures !IsExploded(health) && wheelsValid && AmIDriver(isProxy, driverIsLocal) && !f.carValid ==> unchanged(camera)
      ensures !IsExploded(health) && wheelsValid && AmIDriver(isProxy, driverIsLocal) && f.carValid ==>
                && Framed(camera, f.(experimental := features.experimentalCamera), slerp)
                && MinFov <= camera.fieldOfView <= MaxFov
    {
      if IsExploded(health) || !wheelsValid {
        return;
      }
      if AmIDriver(isProxy, driverIsLocal) {
        camera.Update(f.(experimental := features.experimentalCamera), slerp);
      }
    }

    /** `OnDestroy`: the driver is let out before the car goes away. */
    method OnDestroy(isProxy: bool, driverValid: bool, now: real)
      requires Valid()
      modifies this`driver, this`driverLeftAt, controller`input
      ensures Valid()
      ensures !isProxy ==> driver == None && driverLeftAt == now && controller.input == Neutral
      ensures !isProxy && !IsExploded(health) ==> CanEnter(driver, health)
      ensures isProxy ==>
                driver == old(driver) && driverLeftAt == old(driverLeftAt) && controller.input == old(controller.input)
    {
      RemoveDriver(isProxy, driverValid, now);
    }

    /** `featuresHandler`: the driver's panel toggles a feature. */
    method FeaturesHandler(flag: int)
      modifies this`features
      ensures features == HandleFeature(old(features), flag)
      ensures HandleFeature(features, flag) == old(features)
    {
      features := HandleFeature(features, flag);
      HandleFeatureTwice(old(features), flag);
    }
  }
}

=== FILE: tuning.dfy ===
/** The two revisions of the add-on share one controller and one camera; they
    differ only in a handful of tuning constants, gathered here. */
module Tuning {

  /** `Current` is the scene-system revision (code/CarEntity.cs, code/CarCamera.cs);
      `Historical` is the entity-system revision under code/togg_sedan_car/. */
  datatype Revision = Current | Historical

  /** Rest length of every suspension probe, in units. */
  const ProbeLength: real := 20.0

  /** How far AccelerationTilt shortens or stretches an axle's probes. */
  function TiltGain(rev: Revision): (g: real)
    ensures 0.0 < g <= 2.5
  {
    match rev
    case Current => 1.5
    case Historical => 2.5
  }

  /** How far TurnLean shortens or stretches a side's probes. */
  function LeanGain(rev: Revision): (g: real)
    ensures 0.0 < g <= 2.5
  {
    match rev
    case Current => 1.35
    case Historical => 2.5
  }

  /** The camera's CarPitchSmoothingSpeed. */
  function CarPitchSmoothingSpeed(rev: Revision): (s: real)
    ensures 0.0 < s <= 1.0
  {
    match rev
    case Current => 0.4
    case Historical => 1.0
  }

  /** AccelerateSpeed (current) and car_accelspeed (historical): both 500. */
  const AccelerateSpeed: real := 500.0
}

=== FILE: vehicle.dfy ===
/** The vehicle controller's state and its physics tick: the smoothed steering,
    stance and grip fields of the car entity, its four suspension probes and the
    grounded flags, shared by both revisions (`PrePhysicsStep` and
    `RaycastWheels` in code/CarEntity.cs, `OnPrePhysicsStep` and `RaycastWheels`
    in code/togg_sedan_car/CarEntity.cs). The physics body, the traces and the
    engine's vector maths stay outside: what they report comes in as a `Tick`,
    and what the tick does to the body goes out as `BodyCommands`. */
module Vehicle {
  import opened Scalar
  import opened Wrappers
  import opened Tuning
  import opened Wheel
  import opened Drive

  /** What the engine reports to one physics tick. The decay factors are the
      engine's `MathF.Pow(c, dt)` for the three smoothing constants. */
  datatype Tick = Tick(
    dt: real,
    turnDecay: real,                // Pow(0.001, dt): steering and grip
    airDecay: real,                 // Pow(0.0001, dt): air roll and tilt
    stanceDecay: real,              // Pow(0.01, dt): acceleration tilt and turn lean
    forwardVelocity: real,          // local forward velocity at the start of the tick
    horizontalSpeed: real,          // length of the local velocity without its vertical part
    headingDot: real,               // the travel heading dotted with the velocity direction
    traces: Quad<TraceResult>,      // the four suspension rays
    pointVelocities: Quad<PointVelocity>,
    mass: real,
    scale: real,
    groundedForwardVelocity: real,  // local forward velocity after drive, probes and gravity
    airProbeHit: bool,              // the ray 50 units down from the centre of mass
    liftProbeHit: bool,             // the short ray beneath the rolled side
    finalForwardVelocity: real)     // local forward velocity at the end of the tick

  /** The input-driven fields of the controller that each tick smooths. */
  datatype SmoothedFields = SmoothedFields(accelerateDirection: real, turnDirection: real,
                                           accelerationTilt: real, turnLean: real,
                                           airRoll: real, airTilt: real, grip: real)

  /** Nothing steering, leaning or controlling the car in the air, full grip. */
  const AtRest := SmoothedFields(0.0, 0.0, 0.0, 0.0, 0.0, 0.0, 1.0)

  /** The ranges the smoothed fields keep. */
  predicate InBounds(s: SmoothedFields)
  {
    && -1.0 <= s.accelerateDirection <= 1.0 && -1.0 <= s.turnDirection <= 1.0
    && -1.0 <= s.accelerationTilt <= 1.0 && -1.0 <= s.turnLean <= 1.0
    && -1.0 <= s.airRoll <= 1.0 && -1.0 <= s.airTilt <= 1.0
    && 0.0 <= s.grip <= 1.0
  }

  /** One tick's smoothing of those fields: the drive direction read from the
      input, steering one step towards the turning input, the stance one step
      towards its target for the new drive direction and steering, the air
      fields one step towards the roll and tilt input or cleared on the ground,
      and grip one step towards its target. No field overshoots its target, so
      the ranges hold. */
  function SmoothStep(s: SmoothedFields, i: InputState, anyAxleGrounded: bool, grounded: bool, trust: real, t: Tick): (r: SmoothedFields)
    ensures InRange(i) && InBounds(s) ==> InBounds(r)
    ensures grounded ==> r.airRoll == 0.0 && r.airTilt == 0.0
    ensures Between(r.turnDirection, s.turnDirection, Clamp(i.turning, -1.0, 1.0))
    ensures Between(r.grip, s.grip, GripTarget(t.headingDot, trust))
  {
    var direction := AccelerateDirection(i);
    var turn := LerpTo(s.turnDirection, Clamp(i.turning, -1.0, 1.0), 1.0 - t.turnDecay);
    var target := StanceTarget(anyAxleGrounded, direction, t.forwardVelocity, turn);
    SmoothedFields(
      direction,
      turn,
      LerpTo(s.accelerationTilt, target.tilt, 1.0 - t.stanceDecay),
      LerpTo(s.turnLean, target.lean, 1.0 - t.stanceDecay),
      if grounded then 0.0 else LerpTo(s.airRoll, Clamp(i.roll, -1.0, 1.0), 1.0 - t.airDecay),
      if grounded then 0.0 else LerpTo(s.airTilt, Clamp(i.tilt, -1.0, 1.0), 1.0 - t.airDecay),
      LerpTo(s.grip, GripTarget(t.headingDot, trust), 1.0 - t.turnDecay))
  }

  /** What one tick does to the physics body. */
  datatype BodyCommands = BodyCommands(
    driveImpulse: real,             // forward speed added by the rear wheels
    suspension: Quad<Option<SuspensionImpulse>>,
    addGravity: bool,               // gravity added by hand while fully grounded
    gravityScale: real,
    linearDamping: real,
    angularDamping: real,
    yawImpulse: real,
    velocityDamping: Option<(real, real)>,  // forward and lateral coefficients while grounded
    air: AirControl)

  class VehicleController {
    const rev: Revision
    const frontLeft: ToggWheel
    const frontRight: ToggWheel
    const backLeft: ToggWheel
    const backRight: ToggWheel

    var input: InputState
    var accelerateDirection: real
    var turnDirection: real
    var airRoll: real
    var airTilt: real
    var accelerationTilt: real
    var turnLean: real
    var grip: real
    var frontWheelsOnGround: bool
    var backWheelsOnGround: bool
    var grounded: bool
    var wheelSpeed: real
    var movementSpeed: real
    /** The ground distances last reported by the four probes. */
    var wheelDistances: Quad<real>

    /** The four probes are distinct objects, the input stays within the
        ranges the driver's buttons give it, and every smoothed field stays in
        range. */
    ghost predicate Valid()
      reads this
    {
      && frontLeft != frontRight && frontLeft != backLeft && frontLeft != backRight
      && frontRight != backLeft && frontRight != backRight && backLeft != backRight
      && InRange(input)
      && -1.0 <= accelerateDirection <= 1.0
      && -1.0 <= turnDirection <= 1.0
      && -1.0 <= airRoll <= 1.0 && -1.0 <= airTilt <= 1.0
      && -1.0 <= accelerationTilt <= 1.0 && -1.0 <= turnLean <= 1.0
      && 0.0 <= grip <= 1.0
      && (grounded <==> frontWheelsOnGround || backWheelsOnGround)
    }

    constructor (rev: Revision)
      ensures Valid()
      ensures this.rev == rev
      ensures fresh(frontLeft) && fresh(frontRight) && fresh(backLeft) && fresh(backRight)
      ensures input == Neutral
      ensures turnDirection == 0.0 && airRoll == 0.0 && airTilt == 0.0 && grip == 0.0
      ensures accelerationTilt == 0.0 && turnLean == 0.0 && accelerateDirection == 0.0
      ensures !frontWheelsOnGround && !backWheelsOnGround && !grounded
    {
      this.rev := rev;
      frontLeft := new ToggWheel();
      frontRight := new ToggWheel();
      backLeft := new ToggWheel();
      backRight := new ToggWheel();
      input := Neutral;
      accelerateDirection := 0.0;
      turnDirection := 0.0;
      airRoll := 0.0;
      airTilt := 0.0;
      accelerationTilt := 0.0;
      turnLean := 0.0;
      grip := 0.0;
      frontWheelsOnGround := false;
      backWheelsOnGround := false;
      grounded := false;
      wheelSpeed := 0.0;
      movementSpeed := 0.0;
      wheelDistances := Quad(0.0, 0.0, 0.0, 0.0);
    }

    /** Probe all four wheels with lengths set by the current tilt and lean.
        Each axle counts as grounded when either of its wheels hits, and all
        four probes run on every call whatever the earlier ones found. */
    method RaycastWheels(doPhysics: bool, traces: Quad<TraceResult>, velocities: Quad<PointVelocity>,
                         scale: real, mass: real, dt: real)
      returns (frontWheels: bool, backWheels: bool, impulses: Quad<Option<SuspensionImpulse>>)
      requires Valid()
      requires doPhysics ==> dt > 0.0
      modifies this`wheelDistances, frontLeft, frontRight, backLeft, backRight
      ensures Valid()
      ensures frontWheels <==> traces.frontLeft.hit || traces.frontRight.hit
      ensures backWheels <==> traces.backLeft.hit || traces.backRight.hit
      ensures var lengths := ProbeLengths(rev, accelerationTilt, turnLean);
              && wheelDistances == Quad(GroundDistance(lengths.frontLeft, traces.frontLeft),
                                        GroundDistance(lengths.frontRight, traces.frontRight),
                                        GroundDistance(lengths.backLeft, traces.backLeft),
                                        GroundDistance(lengths.backRight, traces.backRight))
              && Probed(frontLeft, lengths.frontLeft, doPhysics, traces.frontLeft, scale, mass,
                        velocities.frontLeft, dt, impulses.frontLeft)
              && Probed(frontRight, lengths.frontRight, doPhysics, traces.frontRight, scale, mass,
                        velocities.frontRight, dt, impulses.frontRight)
              && Probed(backLeft, lengths.backLeft, doPhysics, traces.backLeft, scale, mass,
                        velocities.backLeft, dt, impulses.backLeft)
              && Probed(backRight, lengths.backRight, doPhysics, traces.backRight, scale, mass,
                        velocities.backRight, dt, impulses.backRight)
    {
      var lengths := ProbeLengths(rev, accelerationTilt, turnLean);
      var flHit, flDistance, flImpulse := frontLeft.Raycast(lengths.frontLeft, doPhysics, traces.frontLeft,
                                                            scale, mass, velocities.frontLeft, dt);
      var frHit, frDistance, frImpulse := frontRight.Raycast(lengths.frontRight, doPhysics, traces.frontRight,
                                                             scale, mass, velocities.frontRight, dt);
      var blHit, blDistance, blImpulse := backLeft.Raycast(lengths.backLeft, doPhysics, traces.backLeft,
                                                           scale, mass, velocities.backLeft, dt);
      var brHit, brDistance, brImpulse := backRight.Raycast(lengths.backRight, doPhysics, traces.backRight,
                                                            scale, mass, velocities.backRight, dt);
      wheelDistances := Quad(flDistance, frDistance, blDistance, brDistance);
      frontWheels := flHit || frHit;
      backWheels := blHit || brHit;
      impulses := Quad(flImpulse, frImpulse, blImpulse, brImpulse);
    }

    /** The first part of a tick: the drive direction and the smoothed steering,
        air and stance fields, from the input and the grounded flags of the
        previous tick. */
    method SmoothControls(t: Tick)
      requires Valid()
      modifies this`accelerateDirection, this`turnDirection, this`airRoll, this`airTilt,
               this`accelerationTilt, this`turnLean
      ensures Valid()
      ensures accelerateDirection == AccelerateDirection(input)
      ensures turnDirection == LerpTo(old(turnDirection), Clamp(input.turning, -1.0, 1.0), 1.0 - t.turnDecay)
      ensures airRoll == LerpTo(old(airRoll), Clamp(input.roll, -1.0, 1.0), 1.0 - t.airDecay)
      ensures airTilt == LerpTo(old(airTilt), Clamp(input.tilt, -1.0, 1.0), 1.0 - t.airDecay)
      ensures var target := StanceTarget(frontWheelsOnGround || backWheelsOnGround, accelerateDirection,
                                         t.forwardVelocity, turnDirection);
              && accelerationTilt == LerpTo(old(accelerationTilt), target.tilt, 1.0 - t.stanceDecay)
              && turnLean == LerpTo(old(turnLean), target.lean, 1.0 - t.stanceDecay)
    {
      accelerateDirection := AccelerateDirection(input);
      turnDirection := LerpTo(turnDirection, Clamp(input.turning, -1.0, 1.0), 1.0 - t.turnDecay);
      airRoll := LerpTo(airRoll, Clamp(input.roll, -1.0, 1.0), 1.0 - t.airDecay);
      airTilt := LerpTo(airTilt, Clamp(input.tilt, -1.0, 1.0), 1.0 - t.airDecay);
      var target := StanceTarget(backWheelsOnGround || frontWheelsOnGround, accelerateDirection,
                                 t.forwardVelocity, turnDirection);
      accelerationTilt := LerpTo(accelerationTilt, target.tilt, 1.0 - t.stanceDecay);
      turnLean := LerpTo(turnLean, target.lean, 1.0 - t.stanceDecay);
    }

    /** The last part of a tick, once the probes have run: grip, and either
        ground handling (steering impulse, air fields cleared, velocity
        damping) or air control. */
    method Handle(front: bool, back: bool, t: Tick) returns (yaw: real, damping: Option<(real, real)>, air: AirControl)
      requires Valid()
      modifies this`frontWheelsOnGround, this`backWheelsOnGround, this`grounded, this`grip,
               this`wheelSpeed, this`airRoll, this`airTilt, this`movementSpeed
      ensures Valid()
      ensures frontWheelsOnGround == front && backWheelsOnGround == back
      ensures grip == LerpTo(old(grip), GripTarget(t.headingDot, VelocityTrust(t.horizontalSpeed)), 1.0 - t.turnDecay)
      ensures grounded ==> airRoll == 0.0 && airTilt == 0.0
      ensures !grounded ==> airRoll == old(airRoll) && airTilt == old(airTilt)
      ensures wheelSpeed == (if grounded then t.groundedForwardVelocity else old(wheelSpeed))
      ensures movementSpeed == t.finalForwardVelocity
      ensures yaw == (if grounded then TurnAmount(front, t.groundedForwardVelocity, turnDirection, t.dt) else 0.0)
      ensures damping == (if grounded then Some((ForwardGrip(input.breaking), grip)) else None)
      ensures air == AirControlForces(!grounded && !t.airProbeHit, airRoll, airTilt, input, t.liftProbeHit, t.mass, 50.0 * t.scale)
    {
      frontWheelsOnGround := front;
      backWheelsOnGround := back;
      grounded := front || back;
      grip := LerpTo(grip, GripTarget(t.headingDot, VelocityTrust(t.horizontalSpeed)), 1.0 - t.turnDecay);
      var canAirControl := false;
      yaw := 0.0;
      damping := None;
      if grounded {
        wheelSpeed := t.groundedForwardVelocity;
        yaw := TurnAmount(front, t.groundedForwardVelocity, turnDirection, t.dt);
        airRoll := 0.0;
        airTilt := 0.0;
        damping := Some((ForwardGrip(input.breaking), grip));
      } else {
        canAirControl := !t.airProbeHit;
      }
      air := AirControlForces(canAirControl, airRoll, airTilt, input, t.liftProbeHit, t.mass, 50.0 * t.scale);
      movementSpeed := t.finalForwardVelocity;
    }

    /** The fields a tick smooths, as one value. */
    function Fields(): SmoothedFields
      reads this
    {
      SmoothedFields(accelerateDirection, turnDirection, accelerationTilt, turnLean, airRoll, airTilt, grip)
    }

    /** One physics tick on a valid body. */
    method PrePhysicsStep(t: Tick) returns (cmd: BodyCommands)
      requires Valid()
      requires t.dt > 0.0
      modifies this, frontLeft, frontRight, backLeft, backRight
      ensures Valid()
      // the input is kept; the drive direction, steering, stance, air and grip fields follow their targets
      ensures Smoothed(this, t)
      // the grounded flags come from this tick's probes, all four of which run
      ensures frontWheelsOnGround <==> t.traces.frontLeft.hit || t.traces.frontRight.hit
      ensures backWheelsOnGround <==> t.traces.backLeft.hit || t.traces.backRight.hit
      ensures grounded <==> frontWheelsOnGround || backWheelsOnGround
      ensures var lengths := ProbeLengths(rev, accelerationTilt, turnLean);
              && wheelDistances == Quad(GroundDistance(lengths.frontLeft, t.traces.frontLeft),
                                        GroundDistance(lengths.frontRight, t.traces.frontRight),
                                        GroundDistance(lengths.backLeft, t.traces.backLeft),
                                        GroundDistance(lengths.backRight, t.traces.backRight))
              && Probed(frontLeft, lengths.frontLeft, true, t.traces.frontLeft, t.scale, t.mass,
                        t.pointVelocities.frontLeft, t.dt, cmd.suspension.frontLeft)
              && Probed(frontRight, lengths.frontRight, true, t.traces.frontRight, t.scale, t.mass,
                        t.pointVelocities.frontRight, t.dt, cmd.suspension.frontRight)
              && Probed(backLeft, lengths.backLeft, true, t.traces.backLeft, t.scale, t.mass,
                        t.pointVelocities.backLeft, t.dt, cmd.suspension.backLeft)
              && Probed(backRight, lengths.backRight, true, t.traces.backRight, t.scale, t.mass,
                        t.pointVelocities.backRight, t.dt, cmd.suspension.backRight)
      ensures wheelSpeed == (if grounded then t.groundedForwardVelocity else old(wheelSpeed))
      ensures movementSpeed == t.finalForwardVelocity
      // what the body is told
      ensures cmd.driveImpulse == (if old(backWheelsOnGround) then DriveAcceleration(accelerateDirection, t.forwardVelocity, t.dt) else 0.0)
      ensures cmd.addGravity <==> frontWheelsOnGround && backWheelsOnGround
      ensures cmd.gravityScale == GravityScale(frontWheelsOnGround, backWheelsOnGround)
      ensures cmd.linearDamping == 0.0
      ensures cmd.angularDamping == AngularDamping(frontWheelsOnGround && backWheelsOnGround, grip)
      ensures cmd.yawImpulse == (if grounded then TurnAmount(frontWheelsOnGround, t.groundedForwardVelocity, turnDirection, t.dt) else 0.0)
      ensures cmd.velocityDamping == (if grounded then Some((ForwardGrip(input.breaking), grip)) else None)
      ensures cmd.air == AirControlForces(!grounded && !t.airProbeHit, airRoll, airTilt, input, t.liftProbeHit, t.mass, 50.0 * t.scale)
    {
      SmoothControls(t);
      var drive := if backWheelsOnGround then DriveAcceleration(accelerateDirection, t.forwardVelocity, t.dt) else 0.0;
      var front, back, suspension := RaycastWheels(true, t.traces, t.pointVelocities, t.scale, t.mass, t.dt);
      var yaw, damping, air := Handle(front, back, t);
      cmd := BodyCommands(drive, suspension, front && back, GravityScale(front, back), 0.0,
                          AngularDamping(front && back, grip), yaw, damping, air);
    }
  }

  /** How one tick moves the input-driven fields of a controller: the input
      is kept and the smoothed fields take one step, the stance towards the
      target for the previous tick's grounded flags and the air fields cleared
      when this tick's probes found the ground. */
  twostate predicate Smoothed(c: VehicleController, t: Tick)
    reads c
  {
    && c.input == old(c.input)
    && Steps(old(c.Fields()), c.Fields(), c.input, old(c.frontWheelsOnGround || c.backWheelsOnGround), c.grounded,
             VelocityTrust(t.horizontalSpeed), t)
  }

  /** One smoothing step, field by field, from s to r: the drive direction
      read from the input; steering, stance, air control and grip each moved
      towards their targets by the tick's decay; the air fields cleared on the
      ground. */
  predicate Steps(s: SmoothedFields, r: SmoothedFields, i: InputState, anyAxleGrounded: bool, grounded: bool,
                  trust: real, t: Tick)
  {
    && r.accelerateDirection == AccelerateDirection(i)
    && r.turnDirection == LerpTo(s.turnDirection, Clamp(i.turning, -1.0, 1.0), 1.0 - t.turnDecay)
    && (var target := StanceTarget(anyAxleGrounded, r.accelerateDirection, t.forwardVelocity, r.turnDirection);
        && r.accelerationTilt == LerpTo(s.accelerationTilt, target.tilt, 1.0 - t.stanceDecay)
        && r.turnLean == LerpTo(s.turnLean, target.lean, 1.0 - t.stanceDecay))
    && (grounded ==> r.airRoll == 0.0 && r.airTilt == 0.0)
    && (!grounded ==>
          && r.airRoll == LerpTo(s.airRoll, Clamp(i.roll, -1.0, 1.0), 1.0 - t.airDecay)
          && r.airTilt == LerpTo(s.airTilt, Clamp(i.tilt, -1.0, 1.0), 1.0 - t.airDecay))
    && r.grip == LerpTo(s.grip, GripTarget(t.headingDot, trust), 1.0 - t.turnDecay)
  }

  /** The step relation is the graph of `SmoothStep`: from any fields, input
      and tick it leads to exactly one outcome. */
  lemma StepsIsSmoothStep(s: SmoothedFields, r: SmoothedFields, i: InputState, anyAxleGrounded: bool, grounded: bool,
                          trust: real, t: Tick)
    ensures Steps(s, r, i, anyAxleGrounded, grounded, trust, t) <==> r == SmoothStep(s, i, anyAxleGrounded, grounded, trust, t)
  {
  }

  /** With no input held, the drive direction and the steering and air
      targets are at rest. */
  lemma NeutralTargets()
    ensures AccelerateDirection(Neutral) == 0.0
    ensures Clamp(Neutral.turning, -1.0, 1.0) == 0.0 && Clamp(Neutral.roll, -1.0, 1.0) == 0.0
    ensures Clamp(Neutral.tilt, -1.0, 1.0) == 0.0
  {
    NeutralIsWellFormed();
  }

  /** Without drive direction or steering, the stance target is level. */
  lemma LevelStanceTarget(anyAxleGrounded: bool, forwardVelocity: real)
    ensures StanceTarget(anyAxleGrounded, 0.0, forwardVelocity, 0.0) == Stance(0.0, 0.0)
  {
  }

  /** With no input held, fields at rest stay where they are for the
      steering, stance and air steps, and the drive direction is 0. */
  lemma NeutralSteps(s: SmoothedFields, anyAxleGrounded: bool, grounded: bool, trust: real, t: Tick)
    requires s.turnDirection == 0.0 && s.accelerationTilt == 0.0 && s.turnLean == 0.0
    requires s.airRoll == 0.0 && s.airTilt == 0.0
    ensures var r := SmoothStep(s, Neutral, anyAxleGrounded, grounded, trust, t);
            r.accelerateDirection == 0.0 && r.turnDirection == 0.0 && r.accelerationTilt == 0.0 && r.turnLean == 0.0
  {
    NeutralTargets();
    LevelStanceTarget(anyAxleGrounded, t.forwardVelocity);
  }

  /** With no input held, air fields at rest stay at rest, on the ground or
      not. */
  lemma NeutralAirStep(s: SmoothedFields, anyAxleGrounded: bool, grounded: bool, trust: real, t: Tick)
    requires s.airRoll == 0.0 && s.airTilt == 0.0
    ensures var r := SmoothStep(s, Neutral, anyAxleGrounded, grounded, trust, t);
            r.airRoll == 0.0 && r.airTilt == 0.0
  {
    if !grounded {
      assert Clamp(Neutral.roll, -1.0, 1.0) == 0.0 && Clamp(Neutral.tilt, -1.0, 1.0) == 0.0;
    }
  }

  /** A tick of a parked car with no input held is a no-op for the smoothed
      fields: if nothing was steering, leaning or controlling the car in the
      air, grip was full and the car is too slow for its velocity to be
      trusted (below 250 units/s, say), then all of that stays as it was, and
      the drive direction is 0. */
  lemma ParkedTickIsNoOp(s: SmoothedFields, anyAxleGrounded: bool, grounded: bool, trust: real, t: Tick)
    requires s.turnDirection == 0.0 && s.accelerationTilt == 0.0 && s.turnLean == 0.0
    requires s.airRoll == 0.0 && s.airTilt == 0.0 && s.grip == 1.0
    requires trust == 0.0
    ensures SmoothStep(s, Neutral, anyAxleGrounded, grounded, trust, t) == AtRest
  {
    NeutralSteps(s, anyAxleGrounded, grounded, trust, t);
    NeutralAirStep(s, anyAxleGrounded, grounded, trust, t);
  }

  /** Grounded ticks hand no air control to the body, whatever the input. */
  lemma GroundedMeansNoAirControl(airRoll: real, airTilt: real, i: InputState, liftProbeHit: bool, mass: real, offset: real,
                                  grounded: bool, airProbeHit: bool)
    requires grounded
    ensures AirControlForces(!grounded && !airProbeHit, airRoll, airTilt, i, liftProbeHit, mass, offset) == NoAirControl
  {
  }
}

=== FILE: wheel.dfy ===
/** One suspension probe (`ToggWheel` in code/togg_sedan_car/CarWheel.cs): a ray
    cast straight down from the wheel's attach point, turned into a spring-damper
    impulse along the contact normal. The ray trace and the body's point velocity
    are engine calls; their results are parameters here. */
module Wheel {
  import opened Scalar
  import opened Wrappers

  /** What the engine's ray trace reports: whether it hit, the fraction of the
      ray travelled before the hit (1 when nothing was hit) and that distance. */
  datatype TraceResult = TraceResult(hit: bool, fraction: real, distance: real)

  /** `body.GetVelocityAtPoint(wheelAttachPos)` seen through the two numbers the
      probe uses: its component along the chassis' unit up axis and its length. */
  datatype PointVelocity = PointVelocity(alongUp: real, speed: real)

  /** A length is never negative and is never less than the vector's component
      along a unit axis. */
  predicate Consistent(v: PointVelocity)
  {
    v.speed >= 0.0 && Abs(v.alongUp) <= v.speed
  }

  /** The three force terms and the impulse `(spring + damper + correction) * dt`
      applied along the contact normal at the attach point. */
  datatype SuspensionImpulse = SuspensionImpulse(spring: real, damper: real, correction: real, impulse: real)

  /** The distance reported to the caller through `ref wheel`: how far down the
      probe the ground was found. */
  function GroundDistance(length: real, tr: TraceResult): (wheel: real)
    ensures 0.0 <= length && 0.0 <= tr.fraction <= 1.0 ==> 0.0 <= wheel <= length
    ensures tr.fraction == 1.0 ==> wheel == length
    ensures tr.fraction == 0.0 ==> wheel == 0.0
  {
    if 0.0 <= length && 0.0 <= tr.fraction <= 1.0 then
      MulMonotone(length, 0.0, tr.fraction);
      MulMonotone(length, tr.fraction, 1.0);
      length * tr.fraction
    else
      length * tr.fraction
  }

  /** How far the spring is compressed: the scaled probe length less the distance
      travelled to the hit. */
  function Compression(length: real, scale: real, tr: TraceResult): (c: real)
    ensures tr.distance <= length * scale ==> c >= 0.0
    ensures tr.distance == length * scale ==> c == 0.0
  {
    length * scale - tr.distance
  }

  /** The damper gain grows as the hit gets closer to the attach point. */
  function DamperCoefficient(fraction: real): (k: real)
    ensures 0.0 <= fraction <= 1.0 ==> 1.5 <= k <= 4.5
    ensures fraction == 1.0 ==> k == 1.5
    ensures fraction == 0.0 ==> k == 4.5
  {
    1.5 + (1.0 - fraction) * 3.0
  }

  /** `speedDot`: how much of the point velocity is directed downwards, against
      the up axis, as a share of the speed. A zero speed is not divided by. */
  function SpeedDot(v: PointVelocity): (d: real)
    ensures d >= 0.0
    ensures v.speed == 0.0 ==> d == 0.0
    ensures Consistent(v) ==> d <= 1.0
    ensures v.alongUp >= 0.0 && v.speed >= 0.0 ==> d == 0.0
  {
    if Abs(v.speed) > 0.0 then
      var ratio := v.alongUp / v.speed;
      assert Consistent(v) ==> ratio >= -1.0 by {
        if Consistent(v) { RatioAtLeastMinusOne(v.alongUp, v.speed); }
      }
      assert v.alongUp >= 0.0 && v.speed > 0.0 ==> ratio >= 0.0;
      Abs(Min(ratio, 0.0))
    else
      0.0
  }

  lemma RatioAtLeastMinusOne(a: real, s: real)
    requires s > 0.0 && Abs(a) <= s
    ensures a / s >= -1.0
  {
    assert a >= -s;
    assert a / s >= -s / s;
  }

  /** The spring term `mass * 50 * compression`: it pushes the chassis out of
      the ground in proportion to how far the probe is compressed. */
  function SpringForce(mass: real, compression: real): (f: real)
    ensures mass >= 0.0 && compression >= 0.0 ==> f >= 0.0
    ensures mass > 0.0 && compression > 0.0 ==> f > 0.0
    ensures compression == 0.0 || mass == 0.0 ==> f == 0.0
  {
    assert mass >= 0.0 && compression >= 0.0 ==> mass * 50.0 * compression >= 0.0 by {
      if mass >= 0.0 && compression >= 0.0 { MulNonNegative(mass * 50.0, compression); }
    }
    mass * 50.0 * compression
  }

  /** The damper term: the spring velocity `(current - previous) / dt` times the
      mass and the damper gain. It opposes neither compression nor extension
      when the compression did not change since the previous hit. */
  function DamperForce(mass: real, fraction: real, previous: real, current: real, dt: real): (f: real)
    requires dt > 0.0
    ensures current == previous ==> f == 0.0
    ensures mass >= 0.0 && 0.0 <= fraction <= 1.0 && current >= previous ==> f >= 0.0
    ensures mass >= 0.0 && 0.0 <= fraction <= 1.0 && current <= previous ==> f <= 0.0
  {
    var springVelocity := (current - previous) / dt;
    var k := DamperCoefficient(fraction);
    assert mass >= 0.0 && 0.0 <= fraction <= 1.0 ==> Between(mass * k * springVelocity, 0.0, springVelocity * (mass * k)) by {
      if mass >= 0.0 && 0.0 <= fraction <= 1.0 {
        MulNonNegative(mass, k);
        assert mass * k * springVelocity == springVelocity * (mass * k);
        if springVelocity >= 0.0 {
          MulNonNegative(springVelocity, mass * k);
        } else {
          MulNonNegative(-springVelocity, mass * k);
        }
      }
    }
    mass * k * springVelocity
  }

  /** The penetration correction `(1 - fraction) * (s / 1000) * 50 * s / dt`,
      with s the downward speed `speedDot * speed`. */
  function CorrectionForce(fraction: real, v: PointVelocity, dt: real): (f: real)
    requires dt > 0.0
    ensures Consistent(v) && fraction <= 1.0 ==> f >= 0.0
    ensures SpeedDot(v) == 0.0 || fraction == 1.0 ==> f == 0.0
  {
    var speedAlongNormal := SpeedDot(v) * v.speed;
    var correctionMultiplier := (1.0 - fraction) * (speedAlongNormal / 1000.0);
    CorrectionSign(fraction, SpeedDot(v), v.speed, dt);
    correctionMultiplier * 50.0 * speedAlongNormal / dt
  }

  lemma CorrectionSign(fraction: real, speedDot: real, speed: real, dt: real)
    requires dt > 0.0
    ensures fraction <= 1.0 && speedDot >= 0.0 && speed >= 0.0 ==>
              (1.0 - fraction) * (speedDot * speed / 1000.0) * 50.0 * (speedDot * speed) / dt >= 0.0
    ensures speedDot == 0.0 || fraction == 1.0 ==>
              (1.0 - fraction) * (speedDot * speed / 1000.0) * 50.0 * (speedDot * speed) / dt == 0.0
  {
    var along := speedDot * speed;
    var m := (1.0 - fraction) * (along / 1000.0);
    var x := m * 50.0 * along;
    if fraction <= 1.0 && speedDot >= 0.0 && speed >= 0.0 {
      MulNonNegative(speedDot, speed);
      MulNonNegative(1.0 - fraction, along / 1000.0);
      MulNonNegative(m * 50.0, along);
      assert x / dt >= 0.0;
    }
    if speedDot == 0.0 || fraction == 1.0 {
      assert along == 0.0 || m == 0.0;
      assert x == 0.0;
    }
  }

  /** The three terms of one physics hit, given the compression history, and
      the impulse they add up to over the tick. A probe that is compressed and
      not extending never pulls the chassis towards the ground; with the
      compression unchanged and nothing moving down, only the spring acts. */
  function Forces(mass: real, tr: TraceResult, previous: real, current: real, v: PointVelocity, dt: real): (f: SuspensionImpulse)
    requires dt > 0.0
    ensures mass >= 0.0 && 0.0 <= tr.fraction <= 1.0 && Consistent(v) && current >= 0.0 && current >= previous ==>
              f.impulse >= 0.0
    ensures current == previous && (SpeedDot(v) == 0.0 || tr.fraction == 1.0) ==>
              f.impulse == SpringForce(mass, current) * dt
  {
    var spring := SpringForce(mass, current);
    var damper := DamperForce(mass, tr.fraction, previous, current, dt);
    var correction := CorrectionForce(tr.fraction, v, dt);
    var total := spring + damper + correction;
    assert mass >= 0.0 && 0.0 <= tr.fraction <= 1.0 && Consistent(v) && current >= 0.0 && current >= previous ==>
             total * dt >= 0.0 by {
      if mass >= 0.0 && 0.0 <= tr.fraction <= 1.0 && Consistent(v) && current >= 0.0 && current >= previous {
        MulNonNegative(total, dt);
      }
    }
    SuspensionImpulse(spring, damper, correction, total * dt)
  }

  /** At rest on the ground (compression unchanged since the previous hit, the
      attach point not moving downwards) the impulse is the spring term alone,
      and it pushes outward whenever the probe is compressed. */
  lemma RestingImpulseIsSpring(mass: real, tr: TraceResult, c: real, v: PointVelocity, dt: real)
    requires dt > 0.0 && mass > 0.0 && c > 0.0
    requires Consistent(v) && v.alongUp >= 0.0
    ensures Forces(mass, tr, c, c, v, dt).impulse == SpringForce(mass, c) * dt
    ensures Forces(mass, tr, c, c, v, dt).impulse > 0.0
  {
    var f := Forces(mass, tr, c, c, v, dt);
    assert f.damper == 0.0 && f.correction == 0.0;
    MulPositive(SpringForce(mass, c), dt);
  }

  /** The effect of one probe on a wheel's compression history and the impulse
      it hands back: only a physics pass that hits ground shifts the history
      and produces an impulse. */
  twostate predicate Probed(w: ToggWheel, length: real, doPhysics: bool, tr: TraceResult, scale: real,
                            mass: real, v: PointVelocity, dt: real, new applied: Option<SuspensionImpulse>)
    reads w
  {
    if tr.hit && doPhysics then
      && dt > 0.0
      && w.previousLength == old(w.currentLength)
      && w.currentLength == Compression(length, scale, tr)
      && applied == Some(Forces(mass, tr, w.previousLength, w.currentLength, v, dt))
    else
      && w.previousLength == old(w.previousLength)
      && w.currentLength == old(w.currentLength)
      && applied == None
  }

  class ToggWheel {
    /** Compression one physics hit ago, and at the latest physics hit. */
    var previousLength: real
    var currentLength: real

    constructor ()
      ensures previousLength == 0.0 && currentLength == 0.0
    {
      previousLength := 0.0;
      currentLength := 0.0;
    }

    /** Probe with the given length. Reports whether ground was hit and, in
        `wheel`, how far down it was found. Only a physics pass that hits
        ground shifts the compression history and returns an impulse. */
    method Raycast(length: real, doPhysics: bool, tr: TraceResult, scale: real, mass: real,
                   v: PointVelocity, dt: real)
      returns (grounded: bool, wheel: real, applied: Option<SuspensionImpulse>)
      requires tr.hit && doPhysics ==> dt > 0.0
      modifies this
      ensures grounded == tr.hit
      ensures wheel == GroundDistance(length, tr)
      ensures !tr.hit || !doPhysics ==>
                previousLength == old(previousLength) && currentLength == old(currentLength) && applied == None
      ensures tr.hit && doPhysics ==>
                && previousLength == old(currentLength)
                && currentLength == Compression(length, scale, tr)
                && applied == Some(Forces(mass, tr, previousLength, currentLength, v, dt))
      ensures Probed(this, length, doPhysics, tr, scale, mass, v, dt, applied)
    {
      wheel := GroundDistance(length, tr);
      if !tr.hit || !doPhysics {
        return tr.hit, wheel, None;
      }
      previousLength := currentLength;
      currentLength := Compression(length, scale, tr);
      var forces := Forces(mass, tr, previousLength, currentLength, v, dt);
      return true, wheel, Some(forces);
    }
  }
}

=== FILE: wrappers.dfy ===
/** The usual optional-value datatype. */
module Wrappers {

  datatype Option<T> = None | Some(value: T)
}
